=== FILE: README.md ===
# CharityGraph in Dafny

A model of the per-render logic of the `CharityGraph` component, which draws
charities and the money flows between them as a graph of node cards joined
by curved, labelled edges. The model covers five pieces:

- the fixed 4-column grid layout, which centres the grid and pins every node
  (`GridLayout`, `grid.dfy`);
- the greedy word wrap of a charity's name into `tspan` lines (`Text` and
  `LabelWrap`, `text.dfy` and `label_wrap.dfy`);
- the money text: the whole-dollar en-US currency format and the compact
  `$<n>M` format (`Money`, `money.dfy`);
- the selection-driven emphasis of edges and node cards (`Emphasis`,
  `emphasis.dfy`);
- the drag pin state machine with its delayed, never-cancelled releases
  (`DragPins`, `drag.dfy`).

It also models the initial zoom transform (`ViewTransform`, `view.dfy`) and
the edge-label midpoint (`EdgeGeometry`, `edges.dfy`). The shared records
live in `GraphData` (`graph.dfy`).

Coordinates, opacities and widths are exact `real`s. Money amounts are whole,
non-negative dollars (`nat`). Strings are `seq<char>`, so a string's length counts Unicode scalar values.

Each piece has a partner definition, and lemmas connect the two:
- The grid has an inverse: `IndexAt` reads the node index back from a position.
- The wrap's lines are checked against properties stated apart from its loop:
  concatenated they give back the word list (`PackFlatten`), every break is
  forced by the 30-character limit (`WrapGreedy`), the line bounds hold
  (`WrapBounds`), and re-splitting the drawn lines gives the name's words
  again (`WrapPreservesWords`).
- `split` is checked against a reference that squeezes every whitespace run
  to one space (`Text.Squeeze`).
- The money formats have a reader, `ReadValue`.
- Emphasis is checked against the adjacency of the selected node.
- The drag machine keeps an invariant on its pending releases.

Behaviour of the code that a reader might not expect, modelled as written:
- Selection is checked with `!selectedNodeId`, so an empty-string id counts as
  "nothing selected". A node whose id is the empty string still gets the
  selected stroke (`Emphasis.EmptySelection`).
- With nothing selected, edges are drawn at a baseline of 0.4 / 1.5 / 0.8.
  This is dimmer than the 0.8 / 2.5 / 1 an edge gets when it touches the
  selection.
- A selected card's outline is a lighter shade (`#ff6666` instead of
  `#ff4444`), so the outline colour changes with the selection. The fill
  colour does not.
- The component never computes the adjacency set. `connectedNodes` is an
  input. `Emphasis.Adjacency` is a reference definition used only in lemmas.
- The grid pins are not permanent. `dragended` always schedules a release
  after 1000 ms. A later drag never cancels an earlier pending release, so an
  old timer can unpin a node that is being dragged again.
- While the simulation runs, each tick moves a pinned node's x/y data onto
  its pin. A dragged node's x/y data therefore follow the pointer; the drawn
  card does not move. They stay at the drop point unless the simulation
  ticks after the release, and a new grab then pins the node there, not at
  its grid cell.
- The wrap starts a new line when `line + word + " "` is longer than 30
  characters. When the first word is longer than 29 characters, the first
  drawn line is therefore empty.
- A non-whole amount just below a whole million prints a zero tenth:
  1,999,999 prints as `$2.0M`.
- The grid width always assumes 4 columns. With fewer than 4 nodes the row
  sits left of centre.

## Model

| member | source | states |
|---|---|---|
| GridLayout.LayoutGrid | components/charity-graph/CharityGraph.tsx:44-88 | an empty node list lays nothing out; otherwise each node i gets the grid point of cell (i / 4, i % 4) and is pinned exactly there (fx = x, fy = y), and the result depends only on i, the node count and the viewport size |
| GridLayout.Rows | components/charity-graph/CharityGraph.tsx:69 | the row count is the ceiling of n / 4 for every n, zero included: enough rows for n nodes and no spare row; at least one row for a non-empty list |
| GridLayout.IndexAtGridPoint | components/charity-graph/CharityGraph.tsx:80-84 | reading the grid cell back from a node's coordinates gives its index |
| GridLayout.GridPointInjective | components/charity-graph/CharityGraph.tsx:80-84 | distinct nodes never share a position |
| GridLayout.GridCentred | components/charity-graph/CharityGraph.tsx:69-77 | the 4-column box is centred on width / 2, and the first and last rows are symmetric about height / 2 |
| GridLayout.GridBounds | components/charity-graph/CharityGraph.tsx:69-84 | every node lies within 525 of the horizontal centre and within 125 * (rows - 1) of the vertical centre |
| GridLayout.NarrowRowOffCentre | components/charity-graph/CharityGraph.tsx:68-77 | with n < 4 nodes, the occupied columns are centred 175 * (4 - n) left of width / 2, because the box always assumes 4 columns |
| GridLayout.LastRow | components/charity-graph/CharityGraph.tsx:69-81 | the last node's row is rows - 1 |
| Text.Trim | components/charity-graph/CharityGraph.tsx:251 | `trim` returns a contiguous slice of its input: everything before the slice and everything after it is whitespace, and the slice neither starts nor ends with whitespace |
| Text.Split | components/charity-graph/CharityGraph.tsx:240 | `split(/\s+/)` always yields at least one piece, no piece contains whitespace, and the pieces joined by single spaces give the string with each maximal whitespace run squeezed to one space |
| Text.SplitPieces | components/charity-graph/CharityGraph.tsx:240 | for any string, no piece contains whitespace, the pieces glued together are the string with all its whitespace removed, there is one more piece than there are maximal whitespace runs, and the pieces joined by single spaces are the string with every whitespace run squeezed to one space |
| Text.SplitUnique | components/charity-graph/CharityGraph.tsx:240 | the cuts fall exactly at the whitespace runs: any whitespace-free pieces that join by single spaces to the squeezed string are the split |
| Text.SplitJoin | components/charity-graph/CharityGraph.tsx:240 | splitting words that are joined by single spaces gives back exactly those words |
| Text.SplitWords | components/charity-graph/CharityGraph.tsx:240 | a non-empty name without leading or trailing whitespace splits into non-empty pieces that contain no whitespace |
| Text.SplitLeadingSpace | components/charity-graph/CharityGraph.tsx:240 | a name with leading whitespace splits into an empty first piece |
| Text.TrimSpaced | components/charity-graph/CharityGraph.tsx:246-261 | for a line made of proper words (non-empty, no whitespace), the trimmed line, built as word + " " repeated, is its words joined by single spaces |
| LabelWrap.WrapName | components/charity-graph/CharityGraph.tsx:238-262 | the wrap loop emits at least one tspan; tspan k has x = 0 and y = 14 * k, and the tspans are exactly the greedy packing of the name's words |
| LabelWrap.PackFlatten | components/charity-graph/CharityGraph.tsx:245-257 | packing keeps every word, in order: the lines concatenated are the word list |
| LabelWrap.WrapPositions | components/charity-graph/CharityGraph.tsx:250-260 | line k sits at y = 14 * k, and the number of lines is the number of breaks taken plus one |
| LabelWrap.WrapText | components/charity-graph/CharityGraph.tsx:245-261 | for a name made of proper words, each line shows its words joined by single spaces |
| LabelWrap.WrapPreservesWords | components/charity-graph/CharityGraph.tsx:240-261 | for a name made of proper words, re-splitting the drawn lines and concatenating them in order gives exactly the name's words |
| LabelWrap.WrapBounds | components/charity-graph/CharityGraph.tsx:245-257 | for a name made of proper words, a line of two or more words is at most 29 characters long; a longer line is a single word; only the first line can be empty, and only when the first word is longer than 29 characters |
| LabelWrap.WrapGreedy | components/charity-graph/CharityGraph.tsx:246-256 | every break is forced: the next line's first word plus its space would have pushed the previous line past 30 characters |
| LabelWrap.SampleNameWrap | components/charity-graph/CharityGraph.tsx:238-262 | the name THE RHODE ISLAND COMMUNITY FOUNDATION is drawn as its first four words (26 characters) at y = 0 and FOUNDATION at y = 14 |
| Money.FormatCurrency | components/charity-graph/CharityGraph.tsx:34-41 | whole-dollar currency text is a dollar sign followed only by digits and commas, with a comma exactly at every fourth position counted from the right, never directly after the dollar sign; the first digit is 0 only for the amount 0 |
| Money.CurrencyRoundTrip | components/charity-graph/CharityGraph.tsx:34-41 | currency text reads back as the amount, once the thousands separators are removed |
| Money.RoundTenths | components/charity-graph/CharityGraph.tsx:275 | the one-decimal figure is the nearest number of tenths of a million, within half a tenth |
| Money.FormatValue | components/charity-graph/CharityGraph.tsx:272-278 | below a million the text is the currency text, with no `M` and no decimal point; a whole number of millions renders as "$" + millions + "M"; any other amount renders as digits, a point, exactly one digit, then `M`; no text has a leading zero except the amount 0 itself |
| Money.FormatValueRoundTrip | components/charity-graph/CharityGraph.tsx:272-278 | compact text reads back exactly below a million and for whole millions, and within 50,000 otherwise |
| Money.WholeMillionExample | components/charity-graph/CharityGraph.tsx:272-278 | 1,000,000 renders as "$1M" |
| Money.HalfMillionExample | components/charity-graph/CharityGraph.tsx:272-278 | 1,500,000 renders as "$1.5M" |
| Money.SmallAmountUngrouped | components/charity-graph/CharityGraph.tsx:34-41 | an amount under 1,000 renders as "$" and its digits, with no separator |
| Money.ZeroTenthExample | components/charity-graph/CharityGraph.tsx:272-278 | 1,999,999 renders as "$2.0M" |
| Emphasis.EdgeStyle | components/charity-graph/CharityGraph.tsx:125-144 | with no selection every edge gets 0.4 / 1.5 / 0.8; with a selection an edge gets 0.8 / 2.5 / 1 if and only if an endpoint is selected, and 0.1 / 1 / 0.1 otherwise; the label is the currency text of the flow's value |
| Emphasis.NodeStyle | components/charity-graph/CharityGraph.tsx:165-315 | a card gets fill alpha 0.1, stroke opacity 1 and text opacity 1 if and only if nothing is selected, it is selected, or it is in `connectedNodes`; otherwise 0.02 / 0.3 / 0.3; the fill colour is the category's; stroke width is 2 exactly for the selected card, else 1 |
| Emphasis.FillIgnoresSelection | components/charity-graph/CharityGraph.tsx:165-177 | the fill colour depends only on the category, whatever is selected or connected |
| Emphasis.KindFillDistinct | components/charity-graph/CharityGraph.tsx:170-177 | the three categories have three different fill colours |
| Emphasis.EmptySelection | components/charity-graph/CharityGraph.tsx:166-200 | an empty-string selection counts as no selection, yet a card whose id is the empty string gets the selected stroke width and outline |
| Emphasis.AdjacencySymmetric | components/charity-graph/CharityGraph.tsx:125-143 | each endpoint of an edge is adjacent to the other |
| Emphasis.AdjacencyIrreflexive | components/charity-graph/CharityGraph.tsx:125-143 | a node is adjacent to itself only through a self-loop |
| Emphasis.HighlightedEdgeEndsEmphasised | components/charity-graph/CharityGraph.tsx:125-201 | when `connectedNodes` is the selection's adjacency, both ends of a highlighted edge are emphasised cards |
| Emphasis.ChainSelectMiddle | components/charity-graph/CharityGraph.tsx:125-201 | in A -> B -> C with any dollar amounts, selecting B keeps every card and both edges emphasised |
| Emphasis.ChainSelectHead | components/charity-graph/CharityGraph.tsx:125-201 | in A -> B -> C with any dollar amounts, selecting A keeps A and B emphasised and dims C and the edge B -> C |
| DragPins.Start | components/charity-graph/CharityGraph.tsx:318-322 | drag start pins the node at its current position; nothing else changes |
| DragPins.Move | components/charity-graph/CharityGraph.tsx:324-327 | a drag move pins the node under the pointer; nothing else changes |
| DragPins.End | components/charity-graph/CharityGraph.tsx:329-336 | drag end leaves every pin as it is and adds one release, due 1000 ms later |
| DragPins.Tick | components/charity-graph/CharityGraph.tsx:332-335 | as time passes, a node's pin is cleared exactly when one of its releases falls due; the timers themselves move no node; exactly the releases not yet due remain pending |
| DragPins.SimStep | components/charity-graph/CharityGraph.tsx:100-102 | a simulation tick moves every pinned node onto its pin and leaves pins and timers alone; free nodes go where the force integration puts them |
| DragPins.SimStepSettles | components/charity-graph/CharityGraph.tsx:100-102 | after any tick every pinned node sits on its pin |
| DragPins.RegrabAtDrop | components/charity-graph/CharityGraph.tsx:318-336 | a node dragged to (x, y), released after 1000 ms and grabbed again is pinned at (x, y), where it was dropped, once the simulation has ticked during the drag and not after the release |
| DragPins.StepValid | components/charity-graph/CharityGraph.tsx:318-336 | every event keeps the pending releases valid: each names a node and is due within the next 1000 ms |
| DragPins.RunValid | components/charity-graph/CharityGraph.tsx:318-336 | every sequence of events keeps the pending releases valid |
| DragPins.PinHeldAfterEnd | components/charity-graph/CharityGraph.tsx:329-336 | at any time less than 1000 ms after drag end, the pin is still held, unless an earlier release of the node is due |
| DragPins.PinReleasedAfterDelay | components/charity-graph/CharityGraph.tsx:332-335 | 1000 ms after drag end the pin is cleared |
| DragPins.LaterDragDoesNotCancel | components/charity-graph/CharityGraph.tsx:318-336 | a new drag does not cancel an earlier pending release, which still clears the pin of the node being dragged again |
| DragPins.GridPinReleased | components/charity-graph/CharityGraph.tsx:85-87 | a node pinned by the grid layout is unpinned 1000 ms after one completed drag |
| DragPins.StaleTimerScenario | components/charity-graph/CharityGraph.tsx:329-336 | a drop at 0 ms followed by a new grab at 500 ms leaves the node unpinned at 1000 ms, while it is still held |
| ViewTransform.InitialView | components/charity-graph/CharityGraph.tsx:91-97 | the initial transform has scale 0.5, inside the zoom extent [0.2, 2], and leaves the viewport centre fixed |
| ViewTransform.InitialViewHalves | components/charity-graph/CharityGraph.tsx:91-97 | the initial view maps each point p to c + (p - c) / 2, where c is the viewport centre |
| ViewTransform.InitialViewDistances | components/charity-graph/CharityGraph.tsx:91-97 | the initial view halves every horizontal and vertical distance |
| ViewTransform.TranslateApply | components/charity-graph/CharityGraph.tsx:94-97 | a translated transform applies the original transform to the shifted point |
| ViewTransform.ScaleApply | components/charity-graph/CharityGraph.tsx:94-97 | a scaled transform applies the original transform to the scaled point |
| EdgeGeometry.Midpoint | components/charity-graph/CharityGraph.tsx:354-355 | the edge label's anchor is equidistant from the two endpoints, on each axis |
| EdgeGeometry.MidpointSymmetric | components/charity-graph/CharityGraph.tsx:354-355 | the anchor does not depend on the edge's direction, and a self-loop puts it on the node |
| EdgeGeometry.SameRowLabel | components/charity-graph/CharityGraph.tsx:354-355 | between two nodes of one grid row, the label sits on that row, half-way between the two columns |

## Left out

- The d3 force simulation (`forceSimulation`, `forceLink`, `alphaDecay`,
  `alphaTarget`, `restart`, `stop`) is a foreign library. A tick is an event
  (`DragPins.SimStep`). It puts a pinned node on its pin. The position the
  force integration gives a free node is a parameter of the event. When
  ticks happen is not modelled: the `event.active` check, `alphaTarget`,
  alpha decay and the simulation going quiet are left out. An event list
  simply contains a tick or it does not. There is no tick handler in the
  component, so the drawn node transforms are written once, from the grid
  position.
- DragPins.Tick: a release fires exactly `ReleaseDelay` ms after drag end.
  `setTimeout` fires no earlier than that, and possibly later.
  `DragPins.PinReleasedAfterDelay`, `DragPins.GridPinReleased` and
  `DragPins.StaleTimerScenario` rely on the exact time.
- The edge path's arc radius uses `Math.sqrt`, and the label angle uses
  `Math.atan2`. These need floating point. Only the label midpoint is
  modelled.
- A link whose endpoint id matches no node makes d3's `forceLink` throw
  `node not found` at `CharityGraph.tsx:101`. The effect then stops after the
  SVG was cleared at line 51, so nothing is drawn. The model takes link
  endpoints as plain ids and does not model this failure.
- LabelWrap.WrapBounds, LabelWrap.WrapPreservesWords, LabelWrap.WrapText and
  Text.TrimSpaced are stated only for names whose pieces are proper words. A
  name with whitespace at either end, or the empty name, splits into an empty
  piece (`" A"` splits into `""` and `"A"`). That piece vanishes from the
  trimmed line, so these properties are not claimed for such names.
  `WrapGreedy` and `PackFlatten` hold for every name.
- LabelWrap.WrapName: the wrap test `testLine.length > 30` counts UTF-16
  code units, but `|s|` counts Unicode scalar values. A character outside the
  Basic Multilingual Plane, such as an emoji, counts 2 in the source and 1
  here. Names with such characters can wrap differently; the model does not
  cover them.
- `Intl.NumberFormat` is modelled only for whole, non-negative dollar
  amounts, as en-US grouping. Fractional and negative amounts never reach it
  in the data.
- Money.FormatValue: on an exact tie (an amount ending in 50,000 above a whole
  tenth of a million), the source's floating-point `toFixed(1)` can round
  either way. The model rounds up. No contract depends on the tie direction.
- Money.FormatValue: `valueInM % 1 === 0` is modelled as exact divisibility by
  1,000,000. This matches floating point for amounts below 2^53.
- The DOM and SVG construction are left out. So are the React `useEffect`
  lifecycle, the d3 zoom and drag event plumbing, and the click callback.
  None of them has logic beyond attribute constants.
- The card geometry is presentation constants and is left out. This covers
  the rectangle sizes, the alert banner for `high` cards, the text block
  offsets, the EIN line and the four financial text lines. The bold accent
  of the taxpayer-funds line is left out too.
- The `?? 800` / `?? 600` viewport defaults apply only when the element is
  missing. The viewport size is a parameter.
- `app/page.tsx` is not part of this model. Its mock data, SVG download and
  legend text are I/O or prose. It has no classifier for the category
  thresholds.
- `components/search/CharitySearch.tsx` is not part of this model. It holds
  form state and callbacks only.
- `components/ui/charity-card.tsx` is not part of this model. It is a
  formatting wrapper and a category-to-style switch.

=== FILE: drag.dfy ===
/** Dragging a node card. Drag start pins the node where it is, every drag
    move re-pins it under the pointer, and drag end schedules a release of
    the pin `ReleaseDelay` milliseconds later. Nodes are named by their index
    in the node list (the drag subject is the node object itself); pending
    releases are timers that nothing ever cancels. Between events the force
    simulation ticks: each tick moves a pinned node onto its pin, and moves a
    free node wherever the force integration puts it, which is a parameter
    here. */
module DragPins {
  import opened GraphData
  import opened GridLayout

  const ReleaseDelay: nat := 1000

  /** A scheduled `fx = fy = null` for node `node`, firing at time `due`. */
  datatype Release = Release(node: nat, due: nat)

  /** The clock in milliseconds, every node's layout state, and the releases
      not yet fired. */
  datatype DragState = DragState(now: nat, nodes: seq<Placement>, pending: seq<Release>)

  datatype Event =
    | DragStart(node: nat)
    | Drag(node: nat, x: real, y: real)
    | DragEnd(node: nat)
    | Elapse(ms: nat)
    | SimTick(free: seq<Point>)

  /** Every pending release names a node and fires within the next second. */
  predicate Valid(s: DragState) {
    forall k :: 0 <= k < |s.pending| ==>
      s.pending[k].node < |s.nodes| && s.now < s.pending[k].due <= s.now + ReleaseDelay
  }

  /** Some pending release of node `i` fires by time `t`. */
  predicate ReleasedBy(pending: seq<Release>, i: nat, t: nat) {
    exists k :: 0 <= k < |pending| && pending[k].node == i && pending[k].due <= t
  }

  /** `dragstarted`: pin the subject at its current position. */
  function Start(s: DragState, i: nat): (r: DragState)
    requires i < |s.nodes|
    ensures |r.nodes| == |s.nodes| && r.now == s.now && r.pending == s.pending
    ensures r.nodes[i].pin == Some(s.nodes[i].pos) && r.nodes[i].pos == s.nodes[i].pos
    ensures forall j :: 0 <= j < |s.nodes| && j != i ==> r.nodes[j] == s.nodes[j]
  {
    s.(nodes := s.nodes[i := s.nodes[i].(pin := Some(s.nodes[i].pos))])
  }

  /** `dragged`: pin the subject under the pointer. */
  function Move(s: DragState, i: nat, x: real, y: real): (r: DragState)
    requires i < |s.nodes|
    ensures |r.nodes| == |s.nodes| && r.now == s.now && r.pending == s.pending
    ensures r.nodes[i].pin == Some(Point(x, y)) && r.nodes[i].pos == s.nodes[i].pos
    ensures forall j :: 0 <= j < |s.nodes| && j != i ==> r.nodes[j] == s.nodes[j]
  {
    s.(nodes := s.nodes[i := s.nodes[i].(pin := Some(Point(x, y)))])
  }

  /** `dragended`: leave the pin alone and schedule its release. */
  function End(s: DragState, i: nat): (r: DragState)
    requires i < |s.nodes|
    ensures r.nodes == s.nodes && r.now == s.now
    ensures r.pending == s.pending + [Release(i, s.now + ReleaseDelay)]
  {
    s.(pending := s.pending + [Release(i, s.now + ReleaseDelay)])
  }

  /** The releases still waiting at time `t`. */
  function Waiting(pending: seq<Release>, t: nat): (r: seq<Release>)
    ensures forall k :: 0 <= k < |r| ==> r[k] in pending && r[k].due > t
    ensures forall k :: 0 <= k < |pending| && pending[k].due > t ==> pending[k] in r
    decreases |pending|
  {
    if pending == [] then []
    else (if pending[0].due > t then [pending[0]] else []) + Waiting(pending[1..], t)
  }

  /** Time passes: every release due by the new time clears its node's pin. */
  function Tick(s: DragState, ms: nat): (r: DragState)
    ensures r.now == s.now + ms && |r.nodes| == |s.nodes|
    ensures forall j :: 0 <= j < |s.nodes| ==> r.nodes[j].pos == s.nodes[j].pos
    ensures forall j :: 0 <= j < |s.nodes| ==>
      r.nodes[j].pin == (if ReleasedBy(s.pending, j, s.now + ms) then None else s.nodes[j].pin)
    ensures forall k :: 0 <= k < |r.pending| ==> r.pending[k] in s.pending && r.pending[k].due > r.now
    ensures forall k :: 0 <= k < |s.pending| && s.pending[k].due > r.now ==> s.pending[k] in r.pending
  {
    var t := s.now + ms;
    var nodes := seq(|s.nodes|, j requires 0 <= j < |s.nodes| =>
      if ReleasedBy(s.pending, j, t) then s.nodes[j].(pin := None) else s.nodes[j]);
    DragState(t, nodes, Waiting(s.pending, t))
  }

  /** A simulation tick: a pinned node moves onto its pin; a free node moves
      to the position `free` gives it. Pins and timers are untouched. */
  function SimStep(s: DragState, free: seq<Point>): (r: DragState)
    requires |free| == |s.nodes|
    ensures r.now == s.now && r.pending == s.pending && |r.nodes| == |s.nodes|
    ensures forall j :: 0 <= j < |s.nodes| ==> r.nodes[j].pin == s.nodes[j].pin
    ensures forall j :: 0 <= j < |s.nodes| && s.nodes[j].pin.Some? ==> r.nodes[j].pos == s.nodes[j].pin.value
    ensures forall j :: 0 <= j < |s.nodes| && s.nodes[j].pin.None? ==> r.nodes[j].pos == free[j]
  {
    var nodes := seq(|s.nodes|, j requires 0 <= j < |s.nodes| =>
      match s.nodes[j].pin
      case Some(p) => s.nodes[j].(pos := p)
      case None => s.nodes[j].(pos := free[j]));
    s.(nodes := nodes)
  }

  /** After a tick every pinned node sits on its pin. */
  predicate Settled(s: DragState) {
    forall j :: 0 <= j < |s.nodes| && s.nodes[j].pin.Some? ==> s.nodes[j].pos == s.nodes[j].pin.value
  }

  /** The node an event is about, if any. */
  function Subject(e: Event): Option<nat> {
    match e
    case DragStart(i) => Some(i)
    case Drag(i, _, _) => Some(i)
    case DragEnd(i) => Some(i)
    case Elapse(_) => None
    case SimTick(_) => None
  }

  /** The event fits a list of `n` nodes: it is about no node or about one of
      them, and a tick places all of them. */
  predicate Names(e: Event, n: nat) {
    (Subject(e).None? || Subject(e).value < n) && (e.SimTick? ==> |e.free| == n)
  }

  predicate Applicable(s: DragState, e: Event) {
    Names(e, |s.nodes|)
  }

  function Step(s: DragState, e: Event): (r: DragState)
    requires Applicable(s, e)
    ensures |r.nodes| == |s.nodes|
  {
    match e
    case DragStart(i) => Start(s, i)
    case Drag(i, x, y) => Move(s, i, x, y)
    case DragEnd(i) => End(s, i)
    case Elapse(ms) => Tick(s, ms)
    case SimTick(free) => SimStep(s, free)
  }

  /** Every event names a node of a list of `n` nodes. */
  predicate EventsFor(events: seq<Event>, n: nat) {
    forall k :: 0 <= k < |events| ==> Names(events[k], n)
  }

  function Run(s: DragState, events: seq<Event>): (r: DragState)
    requires EventsFor(events, |s.nodes|)
    ensures |r.nodes| == |s.nodes|
    decreases |events|
  {
    if events == [] then s
    else
      Run(Step(s, events[0]), events[1..])
  }

  // ---------------------------------------------------------------------------
  // Properties

  /** Every event keeps the pending releases well formed. */
  lemma StepValid(s: DragState, e: Event)
    requires Valid(s) && Applicable(s, e)
    ensures Valid(Step(s, e))
  {
    match e
    case Elapse(ms) => {
      var r := Tick(s, ms);
      forall k | 0 <= k < |r.pending|
        ensures r.pending[k].node < |r.nodes| && r.now < r.pending[k].due <= r.now + ReleaseDelay
      {
        var j :| 0 <= j < |s.pending| && s.pending[j] == r.pending[k];
      }
    }
    case _ =>
  }

  lemma {:induction false} RunValid(s: DragState, events: seq<Event>)
    requires Valid(s) && EventsFor(events, |s.nodes|)
    ensures Valid(Run(s, events))
    decreases |events|
  {
    if events != [] {
      StepValid(s, events[0]);
      RunValid(Step(s, events[0]), events[1..]);
    }
  }

  /** At any time less than `ReleaseDelay` after drag end the pin is still
      held, unless an earlier release of the same node falls due by then. */
  lemma PinHeldAfterEnd(s: DragState, i: nat, ms: nat)
    requires Valid(s) && i < |s.nodes| && ms < ReleaseDelay
    requires !ReleasedBy(s.pending, i, s.now + ms)
    ensures Tick(End(s, i), ms).nodes[i].pin == s.nodes[i].pin
  {
    var e := End(s, i);
    forall k | 0 <= k < |e.pending|
      ensures !(e.pending[k].node == i && e.pending[k].due <= s.now + ms)
    {
      if k < |s.pending| {
        assert e.pending[k] == s.pending[k];
      }
    }
  }

  /** ... and loses it once `ReleaseDelay` has passed. */
  lemma PinReleasedAfterDelay(s: DragState, i: nat, ms: nat)
    requires i < |s.nodes| && ms >= ReleaseDelay
    ensures Tick(End(s, i), ms).nodes[i].pin == None
  {
    var e := End(s, i);
    assert e.pending[|s.pending|] == Release(i, s.now + ReleaseDelay);
  }

  /** A new drag does not cancel an earlier pending release: the old timer
      still fires and clears the pin of the node being dragged again. */
  lemma LaterDragDoesNotCancel(s: DragState, i: nat, x: real, y: real, ms: nat)
    requires i < |s.nodes| && ReleasedBy(s.pending, i, s.now + ms)
    ensures Tick(Move(Start(s, i), i, x, y), ms).nodes[i].pin == None
  {
  }

  /** The grid layout's pins are not permanent: one completed drag of a
      freshly laid-out node leaves it unpinned a second later. */
  lemma GridPinReleased(nodes: seq<CharityNode>, placed: seq<Placement>, width: real, height: real,
                        i: nat, x: real, y: real)
    requires |placed| == |nodes| && i < |nodes|
    requires forall j :: 0 <= j < |nodes| ==>
      placed[j].pin == Some(placed[j].pos) && placed[j].pos == GridPoint(j, width, height, |nodes|)
    ensures placed[i].pin.Some?
    ensures Run(DragState(0, placed, []), [DragStart(i), Drag(i, x, y), DragEnd(i), Elapse(ReleaseDelay)])
      .nodes[i].pin == None
  {
    var s0 := DragState(0, placed, []);
    var evs := [DragStart(i), Drag(i, x, y), DragEnd(i), Elapse(ReleaseDelay)];
    var s1 := Start(s0, i);
    var s2 := Move(s1, i, x, y);
    var s3 := End(s2, i);
    var s4 := Tick(s3, ReleaseDelay);
    assert s3.pending[0] == Release(i, ReleaseDelay);
    assert s4.nodes[i].pin == None;
    assert Run(s4, []) == s4;
    assert Run(s3, [Elapse(ReleaseDelay)]) == s4;
    assert Run(s2, [DragEnd(i), Elapse(ReleaseDelay)]) == s4;
    assert Run(s1, [Drag(i, x, y), DragEnd(i), Elapse(ReleaseDelay)]) == s4;
  }

  /** The stale-timer scenario: node 0 is dragged and dropped at time 0,
      grabbed again at 500 ms and still held at 1000 ms, when the first drop's
      timer releases it. */
  lemma StaleTimerScenario(p: Point, q: Point, r: Point)
    ensures var s0 := DragState(0, [Placement(p, Some(p))], []);
      var s := Tick(Move(Start(Tick(End(Move(Start(s0, 0), 0, q.x, q.y), 0), 500), 0), 0, r.x, r.y), 500);
      s.now == 1000 && s.nodes[0].pin == None
  {
    var s0 := DragState(0, [Placement(p, Some(p))], []);
    var s1 := Tick(End(Move(Start(s0, 0), 0, q.x, q.y), 0), 500);
    assert Waiting([Release(0, 1000)], 500) == [Release(0, 1000)] by {
      assert [Release(0, 1000)][1..] == [];
    }
    var e := End(Move(Start(s0, 0), 0, q.x, q.y), 0);
    assert e.pending == [] + [Release(0, 1000)] == [Release(0, 1000)];
    assert s1.pending == [Release(0, 1000)];
    var s2 := Move(Start(s1, 0), 0, r.x, r.y);
    assert s2.pending[0] == Release(0, 1000);
  }

  /** Every tick leaves each pinned node on its pin. */
  lemma SimStepSettles(s: DragState, free: seq<Point>)
    requires |free| == |s.nodes|
    ensures Settled(SimStep(s, free))
  {
  }

  /** A node dragged to (x, y) ends up there once the simulation ticks, so
      after its pin is released a new grab pins it where it was dropped, not
      at its grid cell. */
  lemma RegrabAtDrop(placed: seq<Placement>, i: nat, x: real, y: real, free: seq<Point>)
    requires i < |placed| && |free| == |placed|
    ensures Run(DragState(0, placed, []),
                [DragStart(i), Drag(i, x, y), SimTick(free), DragEnd(i), Elapse(ReleaseDelay), DragStart(i)])
      .nodes[i].pin == Some(Point(x, y))
  {
    var s0 := DragState(0, placed, []);
    var s1 := Start(s0, i);
    var s2 := Move(s1, i, x, y);
    var s3 := SimStep(s2, free);
    var s4 := End(s3, i);
    var s5 := Tick(s4, ReleaseDelay);
    RegrabStates(s0, i, x, y, free);
    var e5 := [DragStart(i)];
    var e4 := [Elapse(ReleaseDelay)] + e5;
    var e3 := [DragEnd(i)] + e4;
    var e2 := [SimTick(free)] + e3;
    var e1 := [Drag(i, x, y)] + e2;
    var e0 := [DragStart(i)] + e1;
    assert e0 == [DragStart(i), Drag(i, x, y), SimTick(free), DragEnd(i), Elapse(ReleaseDelay), DragStart(i)];
    RunCons(s5, DragStart(i), []);
    assert [DragStart(i)] + [] == e5;
    RunCons(s4, Elapse(ReleaseDelay), e5);
    RunCons(s3, DragEnd(i), e4);
    RunCons(s2, SimTick(free), e3);
    RunCons(s1, Drag(i, x, y), e2);
    RunCons(s0, DragStart(i), e1);
  }

  /** `Run` takes the first event, then the rest. */
  lemma RunCons(s: DragState, e: Event, rest: seq<Event>)
    requires Applicable(s, e) && EventsFor(rest, |s.nodes|)
    ensures EventsFor([e] + rest, |s.nodes|)
    ensures Run(s, [e] + rest) == Run(Step(s, e), rest)
  {
    assert ([e] + rest)[0] == e && ([e] + rest)[1..] == rest;
    assert forall k :: 1 <= k < |[e] + rest| ==> ([e] + rest)[k] == rest[k - 1];
  }

  /** The states the regrab scenario passes through. */
  lemma RegrabStates(s0: DragState, i: nat, x: real, y: real, free: seq<Point>)
    requires s0.pending == [] && i < |s0.nodes| && |free| == |s0.nodes|
    ensures Start(Tick(End(SimStep(Move(Start(s0, i), i, x, y), free), i), ReleaseDelay), i).nodes[i].pin
      == Some(Point(x, y))
  {
    var s3 := SimStep(Move(Start(s0, i), i, x, y), free);
    assert s3.nodes[i].pos == Point(x, y);
    var s4 := End(s3, i);
    assert s4.pending[0] == Release(i, s0.now + ReleaseDelay);
    assert Tick(s4, ReleaseDelay).nodes[i].pos == Point(x, y);
  }
}

=== FILE: edges.dfy ===
/** Where an edge's value label is anchored: the midpoint of the straight
    segment between the two endpoint positions. */
module EdgeGeometry {
  import opened GraphData
  import GridLayout

  function Midpoint(a: Point, b: Point): (m: Point)
    ensures m.x - a.x == b.x - m.x && m.y - a.y == b.y - m.y
  {
    Point((a.x + b.x) / 2.0, (a.y + b.y) / 2.0)
  }

  /** The midpoint is the same whichever way the edge points, and a self-loop
      puts the label on the node. */
  lemma MidpointSymmetric(a: Point, b: Point)
    ensures Midpoint(a, b) == Midpoint(b, a)
    ensures Midpoint(a, a) == a
  {
  }

  /** Between two nodes of the same grid row the label sits on that row,
      half-way between their columns. */
  lemma SameRowLabel(i: nat, j: nat, width: real, height: real, n: nat)
    requires i / GridLayout.Cols == j / GridLayout.Cols
    ensures Midpoint(GridLayout.GridPoint(i, width, height, n), GridLayout.GridPoint(j, width, height, n)).y
         == GridLayout.GridPoint(i, width, height, n).y
    ensures Midpoint(GridLayout.GridPoint(i, width, height, n), GridLayout.GridPoint(j, width, height, n)).x
         == GridLayout.StartX(width) + ((i % GridLayout.Cols + j % GridLayout.Cols) as real) * GridLayout.SpacingX / 2.0
  {
  }
}

=== FILE: emphasis.dfy ===
/** Selection-driven emphasis: the stroke, width and label opacity of every
    edge and the fill, stroke and text opacity of every node card, as pure
    functions of the selected id, the optional `connectedNodes` set, the edge
    endpoints and the node's category. */
module Emphasis {
  import opened GraphData
  import Money

  /** `!selectedNodeId`: absent and the empty string both read as "nothing selected". */
  predicate NoSelection(selected: Option<string>) {
    selected.None? || selected.value == ""
  }

  /** `d.id === selectedNodeId`. */
  predicate IsSelected(selected: Option<string>, id: string) {
    selected.Some? && selected.value == id
  }

  /** `connectedNodes?.has(d.id)`: false when the set is absent. */
  predicate IsConnected(connected: Option<set<string>>, id: string) {
    connected.Some? && id in connected.value
  }

  /** The edge has the selected node at one of its ends. */
  predicate Touches(selected: Option<string>, link: Link) {
    IsSelected(selected, link.source) || IsSelected(selected, link.target)
  }

  /** Full emphasis for a node card. */
  predicate Emphasised(selected: Option<string>, connected: Option<set<string>>, id: string) {
    NoSelection(selected) || IsSelected(selected, id) || IsConnected(connected, id)
  }

  // ---------------------------------------------------------------------------
  // Edges

  /** An edge's drawn attributes: path stroke opacity and width, and its value
      label's opacity and text. */
  datatype EdgeLook = EdgeLook(strokeOpacity: real, strokeWidth: real, labelOpacity: real, text: string)

  /** The three emphasis levels an edge can be drawn at. */
  predicate Baseline(e: EdgeLook) {
    e.strokeOpacity == 0.4 && e.strokeWidth == 1.5 && e.labelOpacity == 0.8
  }

  predicate Highlighted(e: EdgeLook) {
    e.strokeOpacity == 0.8 && e.strokeWidth == 2.5 && e.labelOpacity == 1.0
  }

  predicate Dimmed(e: EdgeLook) {
    e.strokeOpacity == 0.1 && e.strokeWidth == 1.0 && e.labelOpacity == 0.1
  }

  function EdgeStyle(selected: Option<string>, link: Link): (r: EdgeLook)
    ensures r.text == Money.FormatCurrency(link.value)
    ensures NoSelection(selected) ==> Baseline(r)
    ensures !NoSelection(selected) ==> (Highlighted(r) <==> Touches(selected, link))
    ensures !NoSelection(selected) ==> (Dimmed(r) <==> !Touches(selected, link))
  {
    var caption := Money.FormatCurrency(link.value);
    if NoSelection(selected) then EdgeLook(0.4, 1.5, 0.8, caption)
    else if Touches(selected, link) then EdgeLook(0.8, 2.5, 1.0, caption)
    else EdgeLook(0.1, 1.0, 0.1, caption)
  }

  // ---------------------------------------------------------------------------
  // Nodes

  datatype Rgb = Rgb(red: nat, green: nat, blue: nat)

  /** A node card's drawn attributes: fill colour and alpha, stroke colour,
      width and opacity, and the opacity of every text in the card. */
  datatype NodeLook = NodeLook(
    fill: Rgb, fillAlpha: real,
    stroke: string, strokeWidth: real, strokeOpacity: real,
    textOpacity: real)

  function KindFill(kind: NodeKind): Rgb {
    match kind
    case High => Rgb(255, 68, 68)
    case Medium => Rgb(255, 187, 51)
    case Low => Rgb(153, 153, 153)
  }

  /** The card outline: a lighter shade of the category colour when selected. */
  function KindStroke(kind: NodeKind, selected: bool): string {
    match kind
    case High => if selected then "#ff6666" else "#ff4444"
    case Medium => if selected then "#ffcc66" else "#ffbb33"
    case Low => if selected then "#bbbbbb" else "#999999"
  }

  function NodeStyle(selected: Option<string>, connected: Option<set<string>>, node: CharityNode): (r: NodeLook)
    ensures r.fill == KindFill(node.kind)
    ensures Emphasised(selected, connected, node.id) <==>
      r.fillAlpha == 0.1 && r.strokeOpacity == 1.0 && r.textOpacity == 1.0
    ensures !Emphasised(selected, connected, node.id) <==>
      r.fillAlpha == 0.02 && r.strokeOpacity == 0.3 && r.textOpacity == 0.3
    ensures r.strokeWidth == 2.0 <==> IsSelected(selected, node.id)
    ensures r.strokeWidth == 1.0 <==> !IsSelected(selected, node.id)
    ensures r.stroke == KindStroke(node.kind, IsSelected(selected, node.id))
  {
    var isSelected := IsSelected(selected, node.id);
    var full := Emphasised(selected, connected, node.id);
    NodeLook(
      KindFill(node.kind), if full then 0.1 else 0.02,
      KindStroke(node.kind, isSelected), if isSelected then 2.0 else 1.0,
      if full then 1.0 else 0.3,
      if full then 1.0 else 0.3)
  }

  /** Only opacity and width follow the selection: the fill colour is fixed by
      the category, whatever is selected or connected. */
  lemma FillIgnoresSelection(node: CharityNode, s1: Option<string>, c1: Option<set<string>>,
                             s2: Option<string>, c2: Option<set<string>>)
    ensures NodeStyle(s1, c1, node).fill == NodeStyle(s2, c2, node).fill
    ensures NodeStyle(s1, c1, node).fill == KindFill(node.kind)
  {
  }

  /** An empty-string selection counts as no selection for every opacity, yet
      a node whose id is the empty string is still drawn with the selected
      stroke width and outline colour. */
  lemma EmptySelection(node: CharityNode, connected: Option<set<string>>)
    requires node.id == ""
    ensures NoSelection(Some(""))
    ensures NodeStyle(Some(""), connected, node).strokeOpacity == 1.0
    ensures NodeStyle(Some(""), connected, node).strokeWidth == 2.0
    ensures NodeStyle(Some(""), connected, node).stroke == KindStroke(node.kind, true)
  {
  }

  /** Categories are told apart by fill colour. */
  lemma KindFillDistinct(a: NodeKind, b: NodeKind)
    ensures KindFill(a) == KindFill(b) <==> a == b
  {
  }

  // ---------------------------------------------------------------------------
  // Agreement with the adjacency of the selected node

  /** The ids joined to `id` by one edge in either direction. The component
      takes this set as its `connectedNodes` input; it does not compute it. */
  function Adjacency(id: string, links: seq<Link>): (r: set<string>)
    ensures forall n :: n in r <==> exists l :: l in links && ((l.source == id && l.target == n) || (l.target == id && l.source == n))
  {
    (set l | l in links && l.source == id :: l.target) + (set l | l in links && l.target == id :: l.source)
  }

  /** Adjacency is symmetric. */
  lemma AdjacencySymmetric(links: seq<Link>, l: Link)
    requires l in links
    ensures l.target in Adjacency(l.source, links)
    ensures l.source in Adjacency(l.target, links)
  {
  }

  /** The selected node is its own neighbour only through a self-loop. */
  lemma AdjacencyIrreflexive(id: string, links: seq<Link>)
    ensures id in Adjacency(id, links) <==> exists l :: l in links && l.source == id && l.target == id
  {
  }

  /** When `connectedNodes` is the selected node's adjacency, a highlighted
      edge joins two emphasised cards; equivalently, no edge of a dimmed card
      is highlighted. */
  lemma HighlightedEdgeEndsEmphasised(sel: string, links: seq<Link>, l: Link)
    requires sel != "" && l in links
    requires Highlighted(EdgeStyle(Some(sel), l))
    ensures Emphasised(Some(sel), Some(Adjacency(sel, links)), l.source)
    ensures Emphasised(Some(sel), Some(Adjacency(sel, links)), l.target)
  {
    assert Touches(Some(sel), l);
    if l.source == sel {
      assert l.target in Adjacency(sel, links);
    } else {
      assert l.source in Adjacency(sel, links);
    }
  }

  // ---------------------------------------------------------------------------
  // A three-node chain A -> B -> C

  function ChainNode(id: string): CharityNode {
    CharityNode(id, id, "", 0, 0, 0, 0, Low)
  }

  /** The links A -> B and B -> C, carrying `ab` and `bc` dollars. */
  function Chain(ab: nat, bc: nat): seq<Link> {
    [Link("A", "B", ab), Link("B", "C", bc)]
  }

  /** Selecting the middle node keeps every card and every edge at full emphasis. */
  lemma ChainSelectMiddle(ab: nat, bc: nat)
    ensures Adjacency("B", Chain(ab, bc)) == {"A", "C"}
    ensures forall id :: id in ["A", "B", "C"] ==>
      Emphasised(Some("B"), Some(Adjacency("B", Chain(ab, bc))), id)
    ensures forall l :: l in Chain(ab, bc) ==> Highlighted(EdgeStyle(Some("B"), l))
  {
    var links := Chain(ab, bc);
    assert links[0] in links && links[1] in links;
    assert Adjacency("B", links) == {"A", "C"};
  }

  /** Selecting the head keeps A and B emphasised and dims C and the edge B -> C. */
  lemma ChainSelectHead(ab: nat, bc: nat)
    ensures Adjacency("A", Chain(ab, bc)) == {"B"}
    ensures Emphasised(Some("A"), Some({"B"}), "A")
    ensures Emphasised(Some("A"), Some({"B"}), "B")
    ensures !Emphasised(Some("A"), Some({"B"}), "C")
    ensures NodeStyle(Some("A"), Some({"B"}), ChainNode("C")).strokeOpacity == 0.3
    ensures Highlighted(EdgeStyle(Some("A"), Chain(ab, bc)[0]))
    ensures Dimmed(EdgeStyle(Some("A"), Chain(ab, bc)[1]))
  {
    var links := Chain(ab, bc);
    assert links[0] in links && links[1] in links;
    assert Adjacency("A", links) == {"B"};
  }
}

=== FILE: graph.dfy ===
/** The records the graph component receives from its host page: one node per
    charity and one directed, weighted link per money flow. Links name their
    endpoints by node id. */
module GraphData {

  datatype Option<+T> = None | Some(value: T)

  /** The closed set of categories a charity card can have. */
  datatype NodeKind = High | Medium | Low

  datatype CharityNode = CharityNode(
    id: string,
    name: string,
    ein: string,
    grossReceipts: nat,
    contributions: nat,
    grantsGiven: nat,
    taxpayerFunds: nat,
    kind: NodeKind)

  datatype Link = Link(source: string, target: string, value: nat)

  /** A 2D point in viewport coordinates. */
  datatype Point = Point(x: real, y: real)
}

=== FILE: grid.dfy ===
/** The fixed grid layout of the graph: node `i` goes to row `i / 4`, column
    `i % 4`, cells `SpacingX` apart horizontally and `SpacingY` apart
    vertically, with the grid's box centred in the viewport. Every node is
    pinned where it is placed. Coordinates are exact reals. */
module GridLayout {
  import opened GraphData

  const SpacingX: real := 350.0
  const SpacingY: real := 250.0
  const Cols: nat := 4

  /** A node's layout state: its position and its pin (`fx`, `fy`); `None` is
      the released pin. */
  datatype Placement = Placement(pos: Point, pin: Option<Point>)

  /** `Math.ceil(n / Cols)`. */
  function Rows(n: nat): (r: nat)
    ensures r * Cols >= n
    ensures (r - 1) * Cols < n
    ensures n > 0 ==> r >= 1
  {
    (n + Cols - 1) / Cols
  }

  /** Left edge of the grid: the box is always `Cols` columns wide. */
  function StartX(width: real): real {
    (width - SpacingX * (Cols - 1) as real) / 2.0
  }

  /** Top edge of the grid, from the number of rows `n` nodes need. */
  function StartY(height: real, n: nat): real {
    (height - SpacingY * (Rows(n) as int - 1) as real) / 2.0
  }

  /** Where node `i` of `n` goes in a `width` x `height` viewport. */
  function GridPoint(i: nat, width: real, height: real, n: nat): Point {
    Point(StartX(width) + (i % Cols) as real * SpacingX,
          StartY(height, n) + (i / Cols) as real * SpacingY)
  }

  /** The grid cell a point of the layout lies in, read back from its
      coordinates: the inverse of `GridPoint`. */
  function IndexAt(p: Point, width: real, height: real, n: nat): int {
    var col := ((p.x - StartX(width)) / SpacingX).Floor;
    var row := ((p.y - StartY(height, n)) / SpacingY).Floor;
    row * Cols + col
  }

  /** The layout pass of the graph component: nothing is laid out for an empty
      node list; otherwise every node gets its grid point and is pinned there. */
  method LayoutGrid(nodes: seq<CharityNode>, width: real, height: real)
    returns (placed: Option<seq<Placement>>)
    ensures placed.None? <==> nodes == []
    ensures placed.Some? ==> |placed.value| == |nodes|
    ensures placed.Some? ==> forall i :: 0 <= i < |nodes| ==>
      placed.value[i].pin == Some(placed.value[i].pos)
      && placed.value[i].pos == GridPoint(i, width, height, |nodes|)
  {
    if |nodes| == 0 {
      return None;
    }
    var rows := (|nodes| + Cols - 1) / Cols;
    var gridWidth := SpacingX * (Cols - 1) as real;
    var gridHeight := SpacingY * (rows as int - 1) as real;
    var startX := (width - gridWidth) / 2.0;
    var startY := (height - gridHeight) / 2.0;
    var ps: seq<Placement> := [];
    for i := 0 to |nodes|
      invariant |ps| == i
      invariant forall j :: 0 <= j < i ==>
        ps[j].pin == Some(ps[j].pos) && ps[j].pos == GridPoint(j, width, height, |nodes|)
    {
      var row := i / Cols;
      var col := i % Cols;
      var x := startX + col as real * SpacingX;
      var y := startY + row as real * SpacingY;
      ps := ps + [Placement(Point(x, y), Some(Point(x, y)))];
    }
    return Some(ps);
  }

  // ---------------------------------------------------------------------------
  // Properties of the layout

  /** Each grid point names its node: reading the cell back gives the index. */
  lemma IndexAtGridPoint(i: nat, width: real, height: real, n: nat)
    ensures IndexAt(GridPoint(i, width, height, n), width, height, n) == i
  {
    var p := GridPoint(i, width, height, n);
    var col := i % Cols;
    var row := i / Cols;
    assert (p.x - StartX(width)) / SpacingX == col as real;
    assert (p.y - StartY(height, n)) / SpacingY == row as real;
  }

  /** Distinct nodes never share a position. */
  lemma GridPointInjective(i: nat, j: nat, width: real, height: real, n: nat)
    requires i != j
    ensures GridPoint(i, width, height, n) != GridPoint(j, width, height, n)
  {
    IndexAtGridPoint(i, width, height, n);
    IndexAtGridPoint(j, width, height, n);
  }

  /** The last node sits in the last row. */
  lemma LastRow(n: nat)
    requires n >= 1
    ensures (n - 1) / Cols == Rows(n) - 1
  {
  }

  /** Centring: the four-column box is symmetric about the viewport's vertical
      mid-line, and the first and last rows are symmetric about its horizontal
      mid-line. */
  lemma GridCentred(width: real, height: real, n: nat)
    requires n >= 1
    ensures StartX(width) + SpacingX * (Cols - 1) as real / 2.0 == width / 2.0
    ensures (GridPoint(0, width, height, n).y + GridPoint(n - 1, width, height, n).y) / 2.0 == height / 2.0
    ensures (GridPoint(0, width, height, n).x + (StartX(width) + SpacingX * (Cols - 1) as real)) / 2.0 == width / 2.0
  {
    LastRow(n);
  }

  /** Every node lies in the box of half-width 525 around the viewport centre,
      and in the rows the node count needs. */
  lemma GridBounds(i: nat, width: real, height: real, n: nat)
    requires i < n
    ensures var p := GridPoint(i, width, height, n);
      && width / 2.0 - SpacingX * 1.5 <= p.x <= width / 2.0 + SpacingX * 1.5
      && height / 2.0 - SpacingY * (Rows(n) - 1) as real / 2.0 <= p.y
      && p.y <= height / 2.0 + SpacingY * (Rows(n) - 1) as real / 2.0
  {
    assert i / Cols <= Rows(n) - 1;
  }

  /** With fewer than four nodes the box still assumes four columns, so the
      single row sits left of centre by 175 per missing node. */
  lemma NarrowRowOffCentre(width: real, height: real, n: nat)
    requires 1 <= n < Cols
    ensures (GridPoint(0, width, height, n).x + GridPoint(n - 1, width, height, n).x) / 2.0
         == width / 2.0 - 175.0 * (Cols - n) as real
  {
  }
}

=== FILE: label_wrap.dfy ===
/** The charity-name wrap drawn inside each node card: the name is split on
    whitespace runs and its words are packed greedily into lines of at most
    `MaxLine` characters (counting one trailing space per word); each line
    becomes a `tspan` placed `LineHeight` below the previous one. */
module LabelWrap {
  import opened Text

  const MaxLine: nat := 30
  const LineHeight: nat := 14

  /** One `tspan` of the name text: its x and y attributes and its text. */
  datatype Tspan = Tspan(x: int, y: int, text: string)

  /** Reference definition of the wrap: `cur` is the line being filled, `rest`
      the words still to place. A word closes the current line when the line,
      the word and one space together exceed `MaxLine`. */
  function PackFrom(cur: seq<string>, rest: seq<string>): (r: seq<seq<string>>)
    ensures |r| >= 1
    decreases |rest|
  {
    if rest == [] then [cur]
    else if |Spaced(cur)| + |rest[0]| + 1 > MaxLine then [cur] + PackFrom([rest[0]], rest[1..])
    else PackFrom(cur + [rest[0]], rest[1..])
  }

  /** The words of each line, in order. */
  function Pack(words: seq<string>): (r: seq<seq<string>>)
    ensures |r| >= 1
  {
    PackFrom([], words)
  }

  /** The tspan of line number `n` showing the words `g`. */
  function Line(n: nat, g: seq<string>): Tspan {
    Tspan(0, n * LineHeight, Trim(Spaced(g)))
  }

  /** The tspans for lines `groups`, the first one being line number `base`. */
  function Emit(groups: seq<seq<string>>, base: nat): (r: seq<Tspan>)
    ensures |r| == |groups|
    ensures forall k :: 0 <= k < |r| ==> r[k] == Line(base + k, groups[k])
    decreases |groups|
  {
    if groups == [] then []
    else
      var tail := Emit(groups[1..], base + 1);
      assert forall k :: 1 <= k < |groups| ==>
        tail[k - 1] == Line(base + k, groups[k]) by {
        forall k | 1 <= k < |groups|
          ensures tail[k - 1] == Line(base + k, groups[k])
        {
          assert base + 1 + (k - 1) == base + k;
          assert groups[1..][k - 1] == groups[k];
        }
      }
      [Line(base, groups[0])] + tail
  }

  /** The tspans drawn for a charity name. */
  function Wrap(name: string): seq<Tspan> {
    Emit(Pack(Split(name)), 0)
  }

  function Flatten(gs: seq<seq<string>>): seq<string>
    decreases |gs|
  {
    if gs == [] then [] else gs[0] + Flatten(gs[1..])
  }

  /** The words a drawn line shows: none for an empty line. */
  function LineWords(text: string): seq<string> {
    if text == [] then [] else Split(text)
  }

  /** The name-wrapping loop of the node card, statement by statement. */
  method WrapName(name: string) returns (spans: seq<Tspan>)
    ensures spans == Wrap(name)
    ensures |spans| >= 1
    ensures forall k :: 0 <= k < |spans| ==> spans[k].x == 0 && spans[k].y == k * LineHeight
  {
    var words := Split(name);
    var line := "";
    var lineNumber: nat := 0;
    spans := [];
    ghost var cur: seq<string> := [];
    for i := 0 to |words|
      invariant line == Spaced(cur)
      invariant lineNumber == |spans|
      invariant spans + Emit(PackFrom(cur, words[i..]), lineNumber) == Emit(Pack(words), 0)
    {
      var word := words[i];
      var testLine := line + word + " ";
      ghost var rest := words[i..];
      assert rest[0] == word && rest[1..] == words[i + 1..];
      if |testLine| > MaxLine {
        var span := Tspan(0, lineNumber * LineHeight, Trim(line));
        BreakStep(spans, cur, rest, lineNumber, Emit(Pack(words), 0));
        spans := spans + [span];
        line := word + " ";
        lineNumber := lineNumber + 1;
        cur := [word];
        assert line == Spaced(cur);
      } else {
        SpacedAppend(cur, word);
        FillStep(spans, cur, rest, lineNumber, Emit(Pack(words), 0));
        line := testLine;
        cur := cur + [word];
      }
    }
    assert words[|words|..] == [];
    assert Emit([cur], lineNumber) == [Line(lineNumber, cur)];
    spans := spans + [Tspan(0, lineNumber * LineHeight, Trim(line))];
    WrapPositions(name);
  }

  /** One iteration of the wrap loop that adds a word to the current line. */
  lemma FillStep(spans: seq<Tspan>, cur: seq<string>, rest: seq<string>, n: nat, all: seq<Tspan>)
    requires rest != [] && |Spaced(cur)| + |rest[0]| + 1 <= MaxLine
    requires spans + Emit(PackFrom(cur, rest), n) == all
    ensures spans + Emit(PackFrom(cur + [rest[0]], rest[1..]), n) == all
  {
  }

  /** One iteration of the wrap loop that closes the current line. */
  lemma BreakStep(spans: seq<Tspan>, cur: seq<string>, rest: seq<string>, n: nat, all: seq<Tspan>)
    requires rest != [] && |Spaced(cur)| + |rest[0]| + 1 > MaxLine
    requires spans + Emit(PackFrom(cur, rest), n) == all
    ensures (spans + [Line(n, cur)]) + Emit(PackFrom([rest[0]], rest[1..]), n + 1) == all
  {
    var later := PackFrom([rest[0]], rest[1..]);
    EmitCons(cur, later, n);
    assert spans + ([Line(n, cur)] + Emit(later, n + 1)) == all;
  }

  lemma EmitCons(g: seq<string>, gs: seq<seq<string>>, base: nat)
    ensures Emit([g] + gs, base) == [Line(base, g)] + Emit(gs, base + 1)
  {
    assert ([g] + gs)[1..] == gs;
  }

  // ---------------------------------------------------------------------------
  // Properties of the greedy packing

  /** Packing keeps every word, in order: the lines concatenated are the input. */
  lemma {:induction false} PackFromFlatten(cur: seq<string>, rest: seq<string>)
    ensures Flatten(PackFrom(cur, rest)) == cur + rest
    decreases |rest|
  {
    if rest == [] {
      assert Flatten([cur]) == cur + Flatten([]);
      assert cur + [] == cur;
    } else if |Spaced(cur)| + |rest[0]| + 1 > MaxLine {
      PackFromFlatten([rest[0]], rest[1..]);
      var tail := PackFrom([rest[0]], rest[1..]);
      assert ([cur] + tail)[1..] == tail;
      assert [rest[0]] + rest[1..] == rest;
    } else {
      PackFromFlatten(cur + [rest[0]], rest[1..]);
      assert cur + [rest[0]] + rest[1..] == cur + rest;
    }
  }

  lemma PackFlatten(words: seq<string>)
    ensures Flatten(Pack(words)) == words
  {
    PackFromFlatten([], words);
  }

  /** A line of two or more words fits in `MaxLine` characters, trailing space included. */
  predicate Fits(g: seq<string>) {
    |g| >= 2 ==> |Spaced(g)| <= MaxLine
  }

  lemma {:induction false} PackFromFits(cur: seq<string>, rest: seq<string>)
    requires Fits(cur)
    ensures forall k :: 0 <= k < |PackFrom(cur, rest)| ==> Fits(PackFrom(cur, rest)[k])
    decreases |rest|
  {
    if rest == [] {
    } else if |Spaced(cur)| + |rest[0]| + 1 > MaxLine {
      PackFromFits([rest[0]], rest[1..]);
      var tail := PackFrom([rest[0]], rest[1..]);
      assert forall k :: 1 <= k < |[cur] + tail| ==> ([cur] + tail)[k] == tail[k - 1];
    } else {
      SpacedAppend(cur, rest[0]);
      PackFromFits(cur + [rest[0]], rest[1..]);
    }
  }

  /** Every line after the first has at least one word; the first line is empty
      exactly when there are no words or the first word alone, with its space,
      does not fit. */
  lemma {:induction false} PackFromEmptyLines(cur: seq<string>, rest: seq<string>)
    ensures forall k :: 1 <= k < |PackFrom(cur, rest)| ==> PackFrom(cur, rest)[k] != []
    ensures PackFrom(cur, rest)[0] == [] <==> cur == [] && (rest == [] || |rest[0]| + 1 > MaxLine)
    decreases |rest|
  {
    if rest == [] {
    } else if |Spaced(cur)| + |rest[0]| + 1 > MaxLine {
      PackFromEmptyLines([rest[0]], rest[1..]);
      var tail := PackFrom([rest[0]], rest[1..]);
      assert forall k :: 1 <= k < |[cur] + tail| ==> ([cur] + tail)[k] == tail[k - 1];
    } else {
      PackFromEmptyLines(cur + [rest[0]], rest[1..]);
    }
  }

  /** Greedy: each line is closed only because the next line's first word,
      with its space, would have pushed it past `MaxLine`. */
  predicate Greedy(gs: seq<seq<string>>) {
    forall k :: 1 <= k < |gs| ==>
      gs[k] != [] && |Spaced(gs[k - 1])| + |gs[k][0]| + 1 > MaxLine
  }

  lemma {:induction false} PackFromGreedy(cur: seq<string>, rest: seq<string>)
    ensures Greedy(PackFrom(cur, rest))
    decreases |rest|
  {
    if rest == [] {
    } else if |Spaced(cur)| + |rest[0]| + 1 > MaxLine {
      PackFromGreedy([rest[0]], rest[1..]);
      PackFromFirst([rest[0]], rest[1..]);
      var tail := PackFrom([rest[0]], rest[1..]);
      assert forall k :: 1 <= k < |[cur] + tail| ==> ([cur] + tail)[k] == tail[k - 1];
    } else {
      PackFromGreedy(cur + [rest[0]], rest[1..]);
    }
  }

  /** The line being filled is a prefix of the first line produced. */
  lemma {:induction false} PackFromFirst(cur: seq<string>, rest: seq<string>)
    ensures |PackFrom(cur, rest)[0]| >= |cur|
    ensures PackFrom(cur, rest)[0][..|cur|] == cur
    decreases |rest|
  {
    if rest == [] {
    } else if |Spaced(cur)| + |rest[0]| + 1 > MaxLine {
    } else {
      PackFromFirst(cur + [rest[0]], rest[1..]);
      var first := PackFrom(cur + [rest[0]], rest[1..])[0];
      assert first[..|cur|] == first[..|cur| + 1][..|cur|];
    }
  }

  // ---------------------------------------------------------------------------
  // Properties of the drawn lines

  /** Line k sits at y = 14 k, every line starts at x = 0, and their number is one
      more than the number of line breaks taken. */
  lemma WrapPositions(name: string)
    ensures |Wrap(name)| == |Pack(Split(name))| >= 1
    ensures forall k :: 0 <= k < |Wrap(name)| ==>
      Wrap(name)[k].x == 0 && Wrap(name)[k].y == k * LineHeight
  {
  }

  /** For a name made of proper words, each drawn line shows its words joined
      by single spaces. */
  lemma WrapText(name: string)
    requires AllWords(Split(name))
    ensures forall k :: 0 <= k < |Wrap(name)| ==> Wrap(name)[k].text == Join(Pack(Split(name))[k])
  {
    var gs := Pack(Split(name));
    PackFromFlatten([], Split(name));
    forall k | 0 <= k < |gs|
      ensures Wrap(name)[k].text == Join(gs[k])
    {
      FlattenMember(gs, k);
      TrimSpaced(gs[k]);
    }
  }

  lemma {:induction false} FlattenMember(gs: seq<seq<string>>, k: nat)
    requires k < |gs|
    ensures forall j :: 0 <= j < |gs[k]| ==> gs[k][j] in Flatten(gs)
    decreases |gs|
  {
    if k > 0 {
      FlattenMember(gs[1..], k - 1);
    }
  }

  /** Re-reading the words of the drawn lines, in order, gives back exactly the
      words of the name. */
  lemma WrapPreservesWords(name: string)
    requires AllWords(Split(name))
    ensures Flatten(seq(|Wrap(name)|, k requires 0 <= k < |Wrap(name)| => LineWords(Wrap(name)[k].text)))
         == Split(name)
  {
    var gs := Pack(Split(name));
    var lines := seq(|Wrap(name)|, k requires 0 <= k < |Wrap(name)| => LineWords(Wrap(name)[k].text));
    WrapText(name);
    PackFromFlatten([], Split(name));
    forall k | 0 <= k < |gs|
      ensures lines[k] == gs[k]
    {
      FlattenMember(gs, k);
      if gs[k] != [] {
        JoinEnds(gs[k]);
        SplitJoin(gs[k]);
      }
    }
    assert lines == gs;
  }

  /** Length bound: a drawn line of two or more words is at most 29 characters
      long, so a longer line is a single word; and the only line that can be
      empty is the first, when the first word alone is longer than 29. */
  lemma WrapBounds(name: string)
    requires AllWords(Split(name))
    ensures forall k :: 0 <= k < |Wrap(name)| && |Pack(Split(name))[k]| >= 2 ==>
      |Wrap(name)[k].text| <= MaxLine - 1
    ensures forall k :: 0 <= k < |Wrap(name)| && |Wrap(name)[k].text| > MaxLine - 1 ==>
      Pack(Split(name))[k] == [Wrap(name)[k].text]
    ensures forall k :: 0 <= k < |Wrap(name)| && Wrap(name)[k].text == [] ==>
      k == 0 && |Split(name)[0]| > MaxLine - 1
  {
    var words := Split(name);
    var gs := Pack(words);
    WrapText(name);
    PackFromFits([], words);
    PackFromEmptyLines([], words);
    PackFromFlatten([], words);
    forall k | 0 <= k < |gs|
      ensures gs[k] != [] ==> |Spaced(gs[k])| == |Join(gs[k])| + 1
      ensures gs[k] != [] ==> Join(gs[k]) != []
    {
      FlattenMember(gs, k);
      SpacedLength(gs[k]);
      if gs[k] != [] {
        JoinEnds(gs[k]);
      }
    }
  }

  /** Greedy packing of the drawn lines: every line break was forced. */
  lemma WrapGreedy(name: string)
    ensures Greedy(Pack(Split(name)))
  {
    PackFromGreedy([], Split(name));
  }

  // ---------------------------------------------------------------------------
  // A card name from the sample data

  /** The words of "THE RHODE ISLAND COMMUNITY FOUNDATION". */
  function SampleWords(): seq<string> {
    ["THE", "RHODE", "ISLAND", "COMMUNITY", "FOUNDATION"]
  }

  lemma SampleAllWords()
    ensures AllWords(SampleWords())
  {
    var w := SampleWords();
    forall k | 0 <= k < |w|
      ensures IsWord(w[k])
    {
    }
  }

  /** The packing takes word `k` onto the line holding words `..k`. */
  lemma PackStep(words: seq<string>, k: nat)
    requires k < |words| && |Spaced(words[..k])| + |words[k]| + 1 <= MaxLine
    ensures PackFrom(words[..k], words[k..]) == PackFrom(words[..k + 1], words[k + 1..])
    ensures |Spaced(words[..k + 1])| == |Spaced(words[..k])| + |words[k]| + 1
  {
    assert words[k..][0] == words[k] && words[k..][1..] == words[k + 1..];
    assert words[..k] + [words[k]] == words[..k + 1];
    SpacedAppend(words[..k], words[k]);
  }

  /** The first four words fill 27 characters; FOUNDATION would make 38. */
  lemma SamplePack(w: seq<string>)
    requires w == SampleWords()
    ensures Pack(w) == [w[..4], [w[4]]]
  {
    SampleFill(w);
    assert w[4..][0] == w[4] && w[4..][1..] == [];
    assert PackFrom(w[..4], w[4..]) == [w[..4]] + PackFrom([w[4]], []);
  }

  /** The first four words share a line of 27 characters. */
  lemma SampleFill(w: seq<string>)
    requires w == SampleWords()
    ensures Pack(w) == PackFrom(w[..4], w[4..])
    ensures |Spaced(w[..4])| == 27
  {
    assert w[..0] == [] && w[0..] == w;
    assert |w[0]| == 3 && |w[1]| == 5 && |w[2]| == 6 && |w[3]| == 9;
    PackStep(w, 0);
    assert |Spaced(w[..1])| == 4;
    PackStep(w, 1);
    assert |Spaced(w[..2])| == 10;
    PackStep(w, 2);
    assert |Spaced(w[..3])| == 17;
    PackStep(w, 3);
  }

  /** The sample name's words come back from `split`, and pack into two lines. */
  lemma SampleLines(w: seq<string>)
    requires w == SampleWords()
    ensures Pack(Split(Join(w))) == [w[..4], [w[4]]]
  {
    SampleAllWords();
    SplitJoin(w);
    SamplePack(w);
  }

  /** The sample name wraps after its fourth word: "THE RHODE ISLAND COMMUNITY"
      (26 characters) on the first line, "FOUNDATION" on the second. */
  lemma SampleNameWrap()
    ensures Wrap(Join(SampleWords()))
         == [Tspan(0, 0, Join(SampleWords()[..4])), Tspan(0, LineHeight, SampleWords()[4])]
    ensures |Join(SampleWords()[..4])| == 26
  {
    SampleWrap(SampleWords());
  }

  lemma SampleWrap(w: seq<string>)
    requires w == SampleWords()
    ensures Wrap(Join(w)) == [Tspan(0, 0, Join(w[..4])), Tspan(0, LineHeight, w[4])]
    ensures |Join(w[..4])| == 26
  {
    SampleAllWords();
    SampleLines(w);
    assert AllWords(w[..4]) && AllWords([w[4]]) by {
      assert forall k :: 0 <= k < 4 ==> w[..4][k] == w[k];
      assert [w[4]][0] == w[4];
    }
    TrimSpaced(w[..4]);
    TrimSpaced([w[4]]);
    SampleFirstLine(w);
  }

  lemma SampleFirstLine(w: seq<string>)
    requires w == SampleWords()
    ensures |Join(w[..4])| == 26
  {
    SpacedLength(w[..4]);
    SampleFill(w);
  }
}

=== FILE: money.dfy ===
/** Money text on the node cards and edge labels. `FormatCurrency` is the
    en-US whole-dollar currency format (a dollar sign, thousands separated by
    commas, no cents); `FormatValue` is the card's compact format, which writes
    a million or more as a count of millions with an `M` suffix. Amounts are
    whole, non-negative dollars. */
module Money {
  import opened GraphData

  const Million: nat := 1000000
  const Tenth: nat := 100000

  predicate IsDigit(c: char) {
    '0' <= c <= '9'
  }

  predicate AllDigits(s: string) {
    forall i :: 0 <= i < |s| ==> IsDigit(s[i])
  }

  function DigitChar(d: nat): (c: char)
    requires d < 10
    ensures IsDigit(c)
  {
    ('0' as int + d) as char
  }

  function DigitValue(c: char): (d: nat)
    requires IsDigit(c)
    ensures d < 10
  {
    (c as int - '0' as int) as nat
  }

  /** Decimal digits of `n`, most significant first, without leading zeros. */
  function NatToString(n: nat): (r: string)
    ensures |r| >= 1 && AllDigits(r)
    ensures r[0] == '0' ==> n == 0
    decreases n
  {
    if n < 10 then [DigitChar(n)] else NatToString(n / 10) + [DigitChar(n % 10)]
  }

  /** The number a string of decimal digits denotes. */
  function ParseDigits(s: string): nat
    requires AllDigits(s)
    decreases |s|
  {
    if s == [] then 0 else ParseDigits(s[..|s| - 1]) * 10 + DigitValue(s[|s| - 1])
  }

  /** `s` with a comma inserted before every group of three digits counted from
      the right, the first group keeping one to three digits. */
  function GroupThousands(s: string): (r: string)
    requires AllDigits(s)
    ensures forall i :: 0 <= i < |r| ==> IsDigit(r[i]) || r[i] == ','
    ensures |s| <= 3 ==> r == s
    ensures |s| >= 1 ==> |r| >= 1 && r[0] == s[0]
    decreases |s|
  {
    if |s| <= 3 then s
    else GroupThousands(s[..|s| - 3]) + "," + s[|s| - 3..]
  }

  lemma ModFour(a: nat)
    ensures (a + 4) % 4 == a % 4
  {
  }

  /** The en-US separator positions: counted from the right, every fourth
      character is a comma, and nothing else is; the text never starts with
      one. */
  lemma {:induction false} GroupThousandsCommas(s: string)
    requires AllDigits(s)
    ensures forall i :: 0 <= i < |GroupThousands(s)| ==>
      (GroupThousands(s)[i] == ',' <==> 0 < i && (|GroupThousands(s)| - 1 - i) % 4 == 3)
    decreases |s|
  {
    var r := GroupThousands(s);
    if |s| > 3 {
      var hi := s[..|s| - 3];
      var g := GroupThousands(hi);
      GroupThousandsCommas(hi);
      assert r == g + "," + s[|s| - 3..];
      assert |r| == |g| + 4;
      forall i | 0 <= i < |r|
        ensures r[i] == ',' <==> 0 < i && (|r| - 1 - i) % 4 == 3
      {
        if i < |g| {
          assert r[i] == g[i];
          ModFour(|g| - 1 - i);
        } else if i > |g| {
          assert r[i] == s[|s| - 3..][i - |g| - 1];
          assert IsDigit(r[i]);
          assert 0 <= |r| - 1 - i < 3;
        } else {
          assert |r| - 1 - i == 3;
        }
      }
    } else {
      forall i | 0 <= i < |r|
        ensures r[i] != ','
      {
        assert IsDigit(s[i]);
      }
    }
  }

  function DropCommas(s: string): (r: string)
    ensures |r| <= |s|
    decreases |s|
  {
    if s == [] then []
    else (if s[0] == ',' then "" else [s[0]]) + DropCommas(s[1..])
  }

  /** en-US currency, USD, no fraction digits: `$1,234,567`. */
  function FormatCurrency(n: nat): (r: string)
    ensures |r| >= 2 && r[0] == '$'
    ensures forall i :: 1 <= i < |r| ==> IsDigit(r[i]) || r[i] == ','
    ensures forall i :: 1 <= i < |r| ==> (r[i] == ',' <==> 1 < i && (|r| - 1 - i) % 4 == 3)
    ensures r[1] == '0' <==> n == 0
  {
    var g := GroupThousands(NatToString(n));
    GroupThousandsCommas(NatToString(n));
    assert forall i :: 1 <= i < |"$" + g| ==> ("$" + g)[i] == g[i - 1];
    "$" + g
  }

  /** The compact value is `t` tenths of a million, `t` the nearest whole
      number of tenths. Exact ties go up here; the source's floating-point
      `toFixed(1)` may resolve them either way, and nothing below depends
      on the direction. */
  function RoundTenths(v: nat): (t: nat)
    ensures v <= t * Tenth + Tenth / 2 && t * Tenth <= v + Tenth / 2
  {
    (v + Tenth / 2) / Tenth
  }

  /** The card's compact money format. */
  function FormatValue(v: nat): (r: string)
    ensures v < Million ==> r == FormatCurrency(v)
    ensures |r| >= 2 && (r[1] == '0' <==> v == 0)
    ensures v < Million ==> 'M' !in r && '.' !in r
    ensures v >= Million ==> |r| >= 3 && r[0] == '$' && r[|r| - 1] == 'M'
    ensures v >= Million && v % Million == 0 ==>
      r == "$" + NatToString(v / Million) + "M" && '.' !in r
    ensures v >= Million && v % Million != 0 ==>
      |r| >= 5 && r[|r| - 3] == '.' && IsDigit(r[|r| - 2])
      && AllDigits(r[1..|r| - 3]) && r[1..|r| - 3] != []
  {
    if v >= Million then
      if v % Million == 0 then
        var r := "$" + NatToString(v / Million) + "M";
        assert forall i :: 1 <= i < |r| - 1 ==> r[i] == NatToString(v / Million)[i - 1];
        r
      else
        var t := RoundTenths(v);
        var whole := NatToString(t / 10);
        var r := "$" + whole + "." + [DigitChar(t % 10)] + "M";
        assert r[1..|r| - 3] == whole;
        r
    else
      FormatCurrency(v)
  }

  /** Reads a money text back: the reference inverse of `FormatValue` and
      `FormatCurrency`. */
  function ReadValue(s: string): Option<nat> {
    if |s| < 2 || s[0] != '$' then None
    else if s[|s| - 1] == 'M' then
      var body := s[1..|s| - 1];
      if |body| >= 3 && body[|body| - 2] == '.' && AllDigits(body[..|body| - 2]) && IsDigit(body[|body| - 1]) then
        Some((ParseDigits(body[..|body| - 2]) * 10 + DigitValue(body[|body| - 1])) * Tenth)
      else if body != [] && AllDigits(body) then
        Some(ParseDigits(body) * Million)
      else
        None
    else
      var digits := DropCommas(s[1..]);
      if digits != [] && AllDigits(digits) then Some(ParseDigits(digits)) else None
  }

  // ---------------------------------------------------------------------------
  // Round trips

  lemma ParseDigitsSnoc(s: string, c: char)
    requires AllDigits(s) && IsDigit(c)
    ensures AllDigits(s + [c]) && ParseDigits(s + [c]) == ParseDigits(s) * 10 + DigitValue(c)
  {
    assert (s + [c])[..|s|] == s;
  }

  /** Decimal digits read back as the number they were made from. */
  lemma {:induction false} ParseNatToString(n: nat)
    ensures ParseDigits(NatToString(n)) == n
    decreases n
  {
    if n < 10 {
      assert NatToString(n)[..0] == [];
    } else {
      var hi, c := NatToString(n / 10), DigitChar(n % 10);
      assert NatToString(n) == hi + [c];
      ParseNatToString(n / 10);
      ParseDigitsSnoc(hi, c);
      assert DigitValue(c) == n % 10;
    }
  }

  lemma {:induction false} DropCommasAppend(a: string, b: string)
    ensures DropCommas(a + b) == DropCommas(a) + DropCommas(b)
    decreases |a|
  {
    if a == [] {
      assert a + b == b;
    } else {
      var head := if a[0] == ',' then "" else [a[0]];
      assert (a + b)[0] == a[0];
      assert (a + b)[1..] == a[1..] + b;
      DropCommasAppend(a[1..], b);
      assert DropCommas(a + b) == head + (DropCommas(a[1..]) + DropCommas(b));
    }
  }

  lemma DropCommasDigits(s: string)
    requires AllDigits(s)
    ensures DropCommas(s) == s
    decreases |s|
  {
    if s != [] {
      DropCommasDigits(s[1..]);
    }
  }

  /** Removing the thousands separators gives the plain digits back. */
  lemma {:induction false} DropCommasGroupThousands(s: string)
    requires AllDigits(s)
    ensures DropCommas(GroupThousands(s)) == s
    decreases |s|
  {
    if |s| <= 3 {
      DropCommasDigits(s);
    } else {
      var hi := s[..|s| - 3];
      var lo := s[|s| - 3..];
      var g := GroupThousands(hi);
      assert GroupThousands(s) == g + "," + lo;
      DropCommasGroupThousands(hi);
      DropCommasAppend(g + ",", lo);
      DropCommasAppend(g, ",");
      assert DropCommas(",") == "" by {
        assert ","[1..] == [];
      }
      DropCommasDigits(lo);
      assert DropCommas(g + "," + lo) == hi + lo;
      assert hi + lo == s;
    }
  }

  /** Currency text reads back as the amount. */
  lemma CurrencyRoundTrip(n: nat)
    ensures ReadValue(FormatCurrency(n)) == Some(n)
  {
    var d := NatToString(n);
    var r := FormatCurrency(n);
    DropCommasGroupThousands(d);
    assert r[1..] == GroupThousands(d);
    ParseNatToString(n);
  }

  /** Compact text reads back as the amount: exactly for amounts under a
      million and for whole millions, and to within half a tenth of a million
      otherwise. Below a million the text never carries the `M` suffix. */
  lemma FormatValueRoundTrip(v: nat)
    ensures ReadValue(FormatValue(v)).Some?
    ensures v < Million || v % Million == 0 ==> ReadValue(FormatValue(v)) == Some(v)
    ensures v - Tenth / 2 <= ReadValue(FormatValue(v)).value <= v + Tenth / 2
  {
    if v < Million {
      CurrencyRoundTrip(v);
      assert FormatValue(v)[|FormatValue(v)| - 1] != 'M';
    } else if v % Million == 0 {
      WholeMillionsRoundTrip(v);
    } else {
      TenthsRoundTrip(v);
    }
  }

  lemma WholeMillionsRoundTrip(v: nat)
    requires v >= Million && v % Million == 0
    ensures ReadValue(FormatValue(v)) == Some(v)
  {
    var m := NatToString(v / Million);
    var r := FormatValue(v);
    assert r[1..|r| - 1] == m;
    ParseNatToString(v / Million);
  }

  lemma TenthsRoundTrip(v: nat)
    requires v >= Million && v % Million != 0
    ensures ReadValue(FormatValue(v)) == Some(RoundTenths(v) * Tenth)
  {
    var t := RoundTenths(v);
    var whole := NatToString(t / 10);
    assert FormatValue(v) == "$" + whole + "." + [DigitChar(t % 10)] + "M";
    ReadTenths(whole, DigitChar(t % 10));
    ParseNatToString(t / 10);
    assert (t / 10) * 10 + t % 10 == t;
  }

  /** `$<digits>.<digit>M` reads back as that many tenths of a million. */
  lemma ReadTenths(whole: string, d: char)
    requires whole != [] && AllDigits(whole) && IsDigit(d)
    ensures ReadValue("$" + whole + "." + [d] + "M") == Some((ParseDigits(whole) * 10 + DigitValue(d)) * Tenth)
  {
    var r := "$" + whole + "." + [d] + "M";
    var body := r[1..|r| - 1];
    assert body == whole + "." + [d];
    assert body[..|body| - 2] == whole;
  }

  /** Examples of the compact format. */
  lemma WholeMillionExample()
    ensures FormatValue(1000000) == "$1M"
  {
  }

  lemma HalfMillionExample()
    ensures FormatValue(1500000) == "$1.5M"
  {
  }

  /** Amounts under a thousand print without a separator. */
  lemma SmallAmountUngrouped(v: nat)
    requires v < 1000
    ensures FormatValue(v) == "$" + NatToString(v)
    ensures ',' !in FormatValue(v)
  {
    ShortDigits(v);
    assert FormatCurrency(v) == "$" + GroupThousands(NatToString(v));
  }

  lemma ShortDigits(n: nat)
    requires n < 1000
    ensures |NatToString(n)| <= 3
  {
    if n >= 10 {
      assert NatToString(n) == NatToString(n / 10) + [DigitChar(n % 10)];
      if n >= 100 {
        assert NatToString(n / 10) == NatToString(n / 100) + [DigitChar(n / 10 % 10)];
      }
    }
  }

  /** A non-whole amount just under a whole million still prints a zero tenth. */
  lemma ZeroTenthExample()
    ensures FormatValue(1999999) == "$2.0M"
  {
  }
}

=== FILE: text.dfy ===
/** The string primitives the label wrap relies on: JavaScript's whitespace
    class (shared by the `\s` regular-expression class and `String.prototype.trim`),
    `trim`, `split(/\s+/)`, and the two ways of gluing words back together. */
module Text {

  /** JavaScript's WhiteSpace and LineTerminator code points. */
  predicate IsSpace(c: char) {
    || c == '\t' || c == '\n' || c == '\U{000B}' || c == '\U{000C}' || c == '\r'
    || c == ' ' || c == '\U{00A0}' || c == '\U{1680}'
    || ('\U{2000}' <= c <= '\U{200A}')
    || c == '\U{2028}' || c == '\U{2029}' || c == '\U{202F}' || c == '\U{205F}'
    || c == '\U{3000}' || c == '\U{FEFF}'
  }

  /** A word as the label wrap expects it: non-empty, no whitespace inside. */
  predicate IsWord(w: string) {
    w != [] && SpaceFree(w)
  }

  predicate SpaceFree(w: string) {
    forall i :: 0 <= i < |w| ==> !IsSpace(w[i])
  }

  predicate AllWords(ws: seq<string>) {
    forall k :: 0 <= k < |ws| ==> IsWord(ws[k])
  }

  /** Drops leading whitespace. */
  function TrimStart(s: string): (r: string)
    ensures |r| <= |s|
    ensures r == [] || !IsSpace(r[0])
  {
    if s != [] && IsSpace(s[0]) then TrimStart(s[1..]) else s
  }

  /** Drops trailing whitespace. */
  function TrimEnd(s: string): (r: string)
    ensures |r| <= |s|
    ensures r == [] || !IsSpace(r[|r| - 1])
  {
    if s != [] && IsSpace(s[|s| - 1]) then TrimEnd(s[..|s| - 1]) else s
  }

  /** `String.prototype.trim`: whitespace removed at both ends, nothing else touched. */
  function Trim(s: string): (r: string)
    ensures |r| <= |s|
    ensures r == [] || (!IsSpace(r[0]) && !IsSpace(r[|r| - 1]))
    ensures exists a, b :: (0 <= a <= b <= |s| && r == s[a..b]
      && (forall i :: 0 <= i < a ==> IsSpace(s[i]))
      && (forall i :: b <= i < |s| ==> IsSpace(s[i])))
  {
    TrimEndKeepsFirst(TrimStart(s));
    TrimSlice(s);
    TrimEnd(TrimStart(s))
  }

  /** Trimming both ends keeps the slice `s[a..b]` and drops only whitespace. */
  lemma TrimSlice(s: string)
    ensures exists a, b :: (0 <= a <= b <= |s| && TrimEnd(TrimStart(s)) == s[a..b]
      && (forall i :: 0 <= i < a ==> IsSpace(s[i]))
      && (forall i :: b <= i < |s| ==> IsSpace(s[i])))
  {
    var t := TrimStart(s);
    TrimStartSuffix(s);
    TrimEndPrefix(t);
    var a := |s| - |t|;
    var r := TrimEnd(t);
    PrefixOfSuffix(s, a, t, r);
    assert 0 <= a <= a + |r| <= |s| && r == s[a..a + |r|]
      && (forall i :: 0 <= i < a ==> IsSpace(s[i]))
      && (forall i :: a + |r| <= i < |s| ==> IsSpace(s[i]));
  }

  /** A prefix `r` of the suffix `t == s[a..]` is the slice `s[a..a + |r|]`, and
      what `t` has after `r` is what `s` has after that slice. */
  lemma PrefixOfSuffix(s: string, a: nat, t: string, r: string)
    requires a <= |s| && t == s[a..] && |r| <= |t| && r == t[..|r|]
    requires forall j :: |r| <= j < |t| ==> IsSpace(t[j])
    ensures r == s[a..a + |r|]
    ensures forall i :: a + |r| <= i < |s| ==> IsSpace(s[i])
  {
    forall i | a + |r| <= i < |s|
      ensures IsSpace(s[i])
    {
      assert s[i] == t[i - a];
    }
  }

  /** Trimming the front keeps a suffix and drops only whitespace. */
  lemma {:induction false} TrimStartSuffix(s: string)
    ensures TrimStart(s) == s[|s| - |TrimStart(s)|..]
    ensures forall i :: 0 <= i < |s| - |TrimStart(s)| ==> IsSpace(s[i])
    decreases |s|
  {
    if s != [] && IsSpace(s[0]) {
      TrimStartSuffix(s[1..]);
      assert forall i :: 1 <= i < |s| ==> s[1..][i - 1] == s[i];
    }
  }

  /** Trimming the back keeps a prefix and drops only whitespace. */
  lemma {:induction false} TrimEndPrefix(s: string)
    ensures TrimEnd(s) == s[..|TrimEnd(s)|]
    ensures forall i :: |TrimEnd(s)| <= i < |s| ==> IsSpace(s[i])
    decreases |s|
  {
    if s != [] && IsSpace(s[|s| - 1]) {
      TrimEndPrefix(s[..|s| - 1]);
    }
  }

  /** Trimming the back only ever drops whitespace, so a non-space first
      character survives it. */
  lemma {:induction false} TrimEndKeepsFirst(s: string)
    ensures s != [] && !IsSpace(s[0]) ==> TrimEnd(s) != [] && TrimEnd(s)[0] == s[0]
    decreases |s|
  {
    if s != [] && IsSpace(s[|s| - 1]) {
      TrimEndKeepsFirst(s[..|s| - 1]);
    }
  }

  /** Words separated by single spaces (the text a wrapped line shows). */
  function Join(ws: seq<string>): string
    decreases |ws|
  {
    if ws == [] then ""
    else if |ws| == 1 then ws[0]
    else ws[0] + " " + Join(ws[1..])
  }

  /** Every word followed by one space: how the label wrap accumulates a line. */
  function Spaced(ws: seq<string>): string
    decreases |ws|
  {
    if ws == [] then "" else ws[0] + " " + Spaced(ws[1..])
  }

  /** `s.split(/\s+/)`: the pieces between maximal runs of whitespace. A leading
      (trailing) run yields an empty first (last) piece, and the empty string
      splits into one empty piece. */
  function Split(s: string): (r: seq<string>)
    ensures |r| >= 1
    ensures AllSpaceFree(r)
    ensures Join(r) == Squeeze(s)
  {
    SplitFromSpaceFreePieces("", s);
    SplitFromSqueeze("", s);
    assert "" + Squeeze(s) == Squeeze(s);
    SplitFrom("", s)
  }

  /** Split, with `cur` the piece read so far. */
  function SplitFrom(cur: string, s: string): (r: seq<string>)
    ensures |r| >= 1
    decreases |s|
  {
    if s == [] then [cur]
    else if IsSpace(s[0]) then [cur] + SplitFrom("", TrimStart(s[1..]))
    else SplitFrom(cur + [s[0]], s[1..])
  }

  lemma {:induction false} SpacedAppend(ws: seq<string>, w: string)
    ensures Spaced(ws + [w]) == Spaced(ws) + w + " "
    decreases |ws|
  {
    if ws == [] {
      assert ws + [w] == [w];
    } else {
      assert (ws + [w])[1..] == ws[1..] + [w];
      SpacedAppend(ws[1..], w);
    }
  }

  lemma {:induction false} SpacedLength(ws: seq<string>)
    ensures ws != [] ==> Spaced(ws) == Join(ws) + " "
    decreases |ws|
  {
    if ws != [] {
      SpacedLength(ws[1..]);
    }
  }

  lemma {:induction false} JoinEnds(ws: seq<string>)
    requires ws != [] && AllWords(ws)
    ensures Join(ws) != []
    ensures Join(ws)[0] == ws[0][0]
    ensures Join(ws)[|Join(ws)| - 1] == ws[|ws| - 1][|ws[|ws| - 1]| - 1]
    decreases |ws|
  {
    if |ws| > 1 {
      var rest := ws[1..];
      assert AllWords(rest) by {
        assert forall k :: 0 <= k < |rest| ==> rest[k] == ws[k + 1];
      }
      JoinEnds(rest);
      var j := Join(rest);
      assert Join(ws) == ws[0] + " " + j;
      assert rest[|rest| - 1] == ws[|ws| - 1];
      assert Join(ws)[|Join(ws)| - 1] == j[|j| - 1];
    }
  }

  /** The trimmed accumulated line is exactly its words joined by single spaces. */
  lemma TrimSpaced(ws: seq<string>)
    requires AllWords(ws)
    ensures Trim(Spaced(ws)) == Join(ws)
  {
    SpacedLength(ws);
    if ws != [] {
      JoinEnds(ws);
      var j := Join(ws);
      var s := j + " ";
      assert s[0] == j[0];
      assert TrimStart(s) == s;
      assert s[..|s| - 1] == j;
      assert TrimEnd(s) == TrimEnd(j);
    }
  }

  lemma JoinCons(w: string, ws: seq<string>)
    requires ws != []
    ensures Join([w] + ws) == w + " " + Join(ws)
  {
    assert ([w] + ws)[0] == w;
    assert ([w] + ws)[1..] == ws;
  }

  /** A piece ended by whitespace: the split of `s` is `cur` followed by the
      split of what comes after the whitespace run. */
  lemma SplitFromSpace(cur: string, s: string)
    requires s != [] && IsSpace(s[0])
    ensures SplitFrom(cur, s) == [cur] + SplitFrom("", TrimStart(s[1..]))
  {
  }

  /** Reading a space-free prefix only extends the current piece. */
  lemma {:induction false} SplitFromSpaceFree(cur: string, w: string, t: string)
    requires SpaceFree(w)
    ensures SplitFrom(cur, w + t) == SplitFrom(cur + w, t)
    decreases |w|
  {
    if w != [] {
      assert (w + t)[0] == w[0];
      assert (w + t)[1..] == w[1..] + t;
      SplitFromSpaceFree(cur + [w[0]], w[1..], t);
      assert cur + [w[0]] + w[1..] == cur + w;
    } else {
      assert w + t == t;
      assert cur + w == cur;
    }
  }

  lemma {:induction false} SplitFromJoin(cur: string, ws: seq<string>)
    requires ws != [] && AllWords(ws)
    ensures SplitFrom(cur, Join(ws)) == [cur + ws[0]] + ws[1..]
    decreases |ws|
  {
    if |ws| == 1 {
      SplitFromSpaceFree(cur, ws[0], "");
      assert ws[0] + "" == ws[0];
    } else {
      var rest := ws[1..];
      assert AllWords(rest) by {
        assert forall k :: 0 <= k < |rest| ==> rest[k] == ws[k + 1];
      }
      SplitFromJoin("", rest);
      SplitFromJoinStep(cur, ws);
    }
  }

  lemma SplitFromJoinStep(cur: string, ws: seq<string>)
    requires |ws| > 1 && AllWords(ws)
    requires AllWords(ws[1..])
    requires SplitFrom("", Join(ws[1..])) == ["" + ws[1..][0]] + ws[1..][1..]
    ensures SplitFrom(cur, Join(ws)) == [cur + ws[0]] + ws[1..]
  {
    var rest := Join(ws[1..]);
    JoinEnds(ws[1..]);
    var s := " " + rest;
    assert Join(ws) == ws[0] + s;
    SplitFromSpaceFree(cur, ws[0], s);
    assert s[0] == ' ' && s[1..] == rest;
    assert TrimStart(rest) == rest;
    SplitFromSpace(cur + ws[0], s);
    assert "" + ws[1] == ws[1];
    assert [ws[1]] + ws[2..] == ws[1..];
  }

  /** Round trip: splitting words joined by single spaces gives the words back. */
  lemma SplitJoin(ws: seq<string>)
    requires ws != [] && AllWords(ws)
    ensures Split(Join(ws)) == ws
  {
    SplitFromJoin("", ws);
    assert "" + ws[0] == ws[0];
  }

  /** No piece of a split contains whitespace. */
  lemma {:induction false} SplitFromSpaceFreePieces(cur: string, s: string)
    requires SpaceFree(cur)
    ensures forall k :: 0 <= k < |SplitFrom(cur, s)| ==> SpaceFree(SplitFrom(cur, s)[k])
    decreases |s|
  {
    if s == [] {
    } else if IsSpace(s[0]) {
      SplitFromSpaceFreePieces("", TrimStart(s[1..]));
    } else {
      SplitFromSpaceFreePieces(cur + [s[0]], s[1..]);
    }
  }

  /** Trimming the front only ever drops whitespace, so a non-space last
      character survives it. */
  lemma {:induction false} TrimStartKeepsLast(s: string)
    requires s != [] && !IsSpace(s[|s| - 1])
    ensures TrimStart(s) != []
    ensures TrimStart(s)[|TrimStart(s)| - 1] == s[|s| - 1]
    decreases |s|
  {
    if IsSpace(s[0]) {
      TrimStartKeepsLast(s[1..]);
    }
  }

  predicate NoEmptyPiece(ps: seq<string>) {
    forall k :: 0 <= k < |ps| ==> ps[k] != []
  }

  lemma {:induction false} SplitFromNonEmptyPieces(cur: string, s: string)
    requires s != [] ==> !IsSpace(s[|s| - 1])
    requires cur == [] ==> s != [] && !IsSpace(s[0])
    ensures NoEmptyPiece(SplitFrom(cur, s))
    decreases |s|
  {
    if s == [] {
    } else if IsSpace(s[0]) {
      var t := TrimStart(s[1..]);
      TrimStartKeepsLast(s[1..]);
      SplitFromNonEmptyPieces("", t);
      assert cur != [];
      var tail := SplitFrom("", t);
      assert SplitFrom(cur, s) == [cur] + tail;
      assert forall k :: 1 <= k < |[cur] + tail| ==> ([cur] + tail)[k] == tail[k - 1];
    } else {
      var u := s[1..];
      assert u != [] ==> u[|u| - 1] == s[|s| - 1];
      SplitFromNonEmptyPieces(cur + [s[0]], u);
      assert SplitFrom(cur, s) == SplitFrom(cur + [s[0]], u);
    }
  }

  /** A non-empty name without leading or trailing whitespace splits into
      proper words: each non-empty and free of whitespace. */
  lemma SplitWords(s: string)
    requires s != [] && !IsSpace(s[0]) && !IsSpace(s[|s| - 1])
    ensures AllWords(Split(s))
  {
    SplitFromSpaceFreePieces("", s);
    SplitFromNonEmptyPieces("", s);
    var ps := Split(s);
    assert forall k :: 0 <= k < |ps| ==> SpaceFree(ps[k]) && ps[k] != [];
  }

  /** Conversely, a name with leading whitespace starts with an empty piece. */
  lemma SplitLeadingSpace(s: string)
    requires s != [] && IsSpace(s[0])
    ensures Split(s)[0] == ""
  {
  }

  // ---------------------------------------------------------------------------
  // Split on arbitrary input

  /** The pieces glued back together with nothing between them. */
  function Concat(ps: seq<string>): string
    decreases |ps|
  {
    if ps == [] then "" else ps[0] + Concat(ps[1..])
  }

  /** `s` with every whitespace character removed. */
  function Unspaced(s: string): string
    decreases |s|
  {
    if s == [] then "" else (if IsSpace(s[0]) then "" else [s[0]]) + Unspaced(s[1..])
  }

  /** The number of maximal whitespace runs in `s`, counting run starts;
      `inRun` says whether the character before `s` was whitespace. */
  function RunsFrom(s: string, inRun: bool): nat
    decreases |s|
  {
    if s == [] then 0
    else (if IsSpace(s[0]) && !inRun then 1 else 0) + RunsFrom(s[1..], IsSpace(s[0]))
  }

  function Runs(s: string): nat {
    RunsFrom(s, false)
  }

  lemma {:induction false} UnspacedTrimStart(s: string)
    ensures Unspaced(TrimStart(s)) == Unspaced(s)
    decreases |s|
  {
    if s != [] && IsSpace(s[0]) {
      UnspacedTrimStart(s[1..]);
    }
  }

  /** Whitespace after whitespace starts no new run. */
  lemma {:induction false} RunsTrimStart(s: string)
    ensures RunsFrom(s, true) == Runs(TrimStart(s))
    decreases |s|
  {
    if s != [] && IsSpace(s[0]) {
      RunsTrimStart(s[1..]);
    }
  }

  lemma SplitFromPiecesSpace(cur: string, s: string)
    requires s != [] && IsSpace(s[0])
    requires Concat(SplitFrom("", TrimStart(s[1..]))) == "" + Unspaced(TrimStart(s[1..]))
    requires |SplitFrom("", TrimStart(s[1..]))| == 1 + Runs(TrimStart(s[1..]))
    ensures Concat(SplitFrom(cur, s)) == cur + Unspaced(s)
    ensures |SplitFrom(cur, s)| == 1 + Runs(s)
  {
    var t := TrimStart(s[1..]);
    var tail := SplitFrom("", t);
    SplitFromSpace(cur, s);
    UnspacedTrimStart(s[1..]);
    RunsTrimStart(s[1..]);
    assert ([cur] + tail)[0] == cur;
    assert ([cur] + tail)[1..] == tail;
    assert Concat([cur] + tail) == cur + Concat(tail);
    assert "" + Unspaced(t) == Unspaced(t);
    assert Unspaced(s) == "" + Unspaced(s[1..]);
    assert Runs(s) == 1 + RunsFrom(s[1..], true);
  }

  lemma {:induction false} SplitFromPieces(cur: string, s: string)
    ensures Concat(SplitFrom(cur, s)) == cur + Unspaced(s)
    ensures |SplitFrom(cur, s)| == 1 + Runs(s)
    decreases |s|
  {
    if s == [] {
      assert Concat([cur]) == cur + Concat([]);
      assert cur + "" == cur;
    } else if IsSpace(s[0]) {
      SplitFromPieces("", TrimStart(s[1..]));
      SplitFromPiecesSpace(cur, s);
    } else {
      SplitFromPieces(cur + [s[0]], s[1..]);
      assert Unspaced(s) == [s[0]] + Unspaced(s[1..]);
      assert cur + [s[0]] + Unspaced(s[1..]) == cur + ([s[0]] + Unspaced(s[1..]));
    }
  }

  /** `s` with every maximal whitespace run replaced by one space; `inRun`
      says whether the character before `s` was whitespace. */
  function SqueezeFrom(s: string, inRun: bool): string
    decreases |s|
  {
    if s == [] then ""
    else if IsSpace(s[0]) then (if inRun then "" else " ") + SqueezeFrom(s[1..], true)
    else [s[0]] + SqueezeFrom(s[1..], false)
  }

  function Squeeze(s: string): string {
    SqueezeFrom(s, false)
  }

  /** Whitespace after whitespace adds nothing to the squeezed text. */
  lemma {:induction false} SqueezeTrimStart(s: string)
    ensures SqueezeFrom(s, true) == Squeeze(TrimStart(s))
    decreases |s|
  {
    if s != [] && IsSpace(s[0]) {
      SqueezeTrimStart(s[1..]);
      assert SqueezeFrom(s, true) == "" + SqueezeFrom(s[1..], true);
    } else if s != [] {
      assert SqueezeFrom(s, true) == [s[0]] + SqueezeFrom(s[1..], false);
    }
  }

  lemma SplitFromSqueezeSpace(cur: string, s: string)
    requires s != [] && IsSpace(s[0])
    requires Join(SplitFrom("", TrimStart(s[1..]))) == "" + Squeeze(TrimStart(s[1..]))
    ensures Join(SplitFrom(cur, s)) == cur + Squeeze(s)
  {
    var t := TrimStart(s[1..]);
    var tail := SplitFrom("", t);
    SplitFromSpace(cur, s);
    SqueezeTrimStart(s[1..]);
    JoinCons(cur, tail);
    assert "" + Squeeze(t) == Squeeze(t);
    assert Squeeze(s) == " " + SqueezeFrom(s[1..], true);
  }

  lemma {:induction false} SplitFromSqueeze(cur: string, s: string)
    ensures Join(SplitFrom(cur, s)) == cur + Squeeze(s)
    decreases |s|
  {
    if s == [] {
      assert cur + "" == cur;
    } else if IsSpace(s[0]) {
      SplitFromSqueeze("", TrimStart(s[1..]));
      SplitFromSqueezeSpace(cur, s);
    } else {
      SplitFromSqueeze(cur + [s[0]], s[1..]);
      assert Squeeze(s) == [s[0]] + Squeeze(s[1..]);
      assert cur + [s[0]] + Squeeze(s[1..]) == cur + ([s[0]] + Squeeze(s[1..]));
    }
  }

  predicate AllSpaceFree(ps: seq<string>) {
    forall k :: 0 <= k < |ps| ==> SpaceFree(ps[k])
  }

  /** The joined text starts with the first piece, followed by a space when
      more pieces come. */
  lemma JoinHead(ps: seq<string>)
    requires ps != []
    ensures |ps| == 1 ==> Join(ps) == ps[0]
    ensures |ps| > 1 ==> Join(ps) == ps[0] + " " + Join(ps[1..])
    ensures |Join(ps)| >= |ps[0]| && Join(ps)[..|ps[0]|] == ps[0]
    ensures |ps| > 1 ==> |Join(ps)| > |ps[0]| && Join(ps)[|ps[0]|] == ' '
  {
  }

  /** Joining whitespace-free pieces with single spaces loses nothing: the
      joined text determines the pieces. */
  lemma {:induction false} JoinInjective(ps: seq<string>, qs: seq<string>)
    requires ps != [] && qs != [] && AllSpaceFree(ps) && AllSpaceFree(qs)
    requires Join(ps) == Join(qs)
    ensures ps == qs
    decreases |ps|
  {
    var j := Join(ps);
    var a, b := ps[0], qs[0];
    JoinHead(ps);
    JoinHead(qs);
    assert |a| == |b| by {
      assert forall i :: 0 <= i < |a| ==> j[i] == a[i];
      assert forall i :: 0 <= i < |b| ==> j[i] == b[i];
    }
    assert a == b;
    assert |ps| == 1 <==> |qs| == 1;
    if |ps| > 1 {
      assert Join(ps[1..]) == j[|a| + 1..] == Join(qs[1..]);
      JoinInjective(ps[1..], qs[1..]);
      assert ps == [a] + ps[1..];
      assert qs == [b] + qs[1..];
    }
  }

  /** `split(/\s+/)` on any string: the pieces hold no whitespace, glued
      together they are the string with its whitespace removed, there is
      one more piece than there are maximal whitespace runs, and joined by
      single spaces they give the string with each run squeezed to one
      space. */
  lemma SplitPieces(s: string)
    ensures forall k :: 0 <= k < |Split(s)| ==> SpaceFree(Split(s)[k])
    ensures Concat(Split(s)) == Unspaced(s)
    ensures |Split(s)| == 1 + Runs(s)
    ensures Join(Split(s)) == Squeeze(s)
  {
    SplitFromSpaceFreePieces("", s);
    SplitFromPieces("", s);
    SplitFromSqueeze("", s);
    assert "" + Unspaced(s) == Unspaced(s);
    assert "" + Squeeze(s) == Squeeze(s);
  }

  /** The cuts are exactly at the whitespace runs: any whitespace-free pieces
      that join by single spaces to the squeezed string are the split. */
  lemma SplitUnique(s: string, ps: seq<string>)
    requires ps != [] && AllSpaceFree(ps) && Join(ps) == Squeeze(s)
    ensures ps == Split(s)
  {
    SplitPieces(s);
    JoinInjective(ps, Split(s));
  }
}

=== FILE: view.dfy ===
/** The zoom transform of the graph's content group: a scale `k` followed by a
    translation, as d3's zoom transform represents it. The zoom behaviour
    allows scales in [`MinScale`, `MaxScale`]; each render starts at half
    scale about the viewport centre. */
module ViewTransform {
  import opened GraphData

  const MinScale: real := 0.2
  const MaxScale: real := 2.0
  const InitialScale: real := 0.5

  /** Screen point = model point * k + (x, y). */
  datatype Zoom = Zoom(k: real, x: real, y: real)

  const Identity: Zoom := Zoom(1.0, 0.0, 0.0)

  function Apply(t: Zoom, p: Point): Point {
    Point(p.x * t.k + t.x, p.y * t.k + t.y)
  }

  /** `transform.translate(dx, dy)`: shift the model before applying `t`. */
  function Translate(t: Zoom, dx: real, dy: real): Zoom
  {
    Zoom(t.k, t.x + t.k * dx, t.y + t.k * dy)
  }

  /** `transform.scale(s)`: scale the model before applying `t`. */
  function Scale(t: Zoom, s: real): Zoom
  {
    Zoom(t.k * s, t.x, t.y)
  }

  predicate InExtent(t: Zoom) {
    MinScale <= t.k <= MaxScale
  }

  /** The transform each render starts from:
      identity . translate(c) . scale(1/2) . translate(-c), c the viewport centre.
      It halves every distance and leaves the centre where it is. */
  function InitialView(width: real, height: real): (t: Zoom)
    ensures t.k == InitialScale && InExtent(t)
    ensures Apply(t, Point(width / 2.0, height / 2.0)) == Point(width / 2.0, height / 2.0)
  {
    var cx := width / 2.0;
    var cy := height / 2.0;
    Translate(Scale(Translate(Identity, cx, cy), InitialScale), -cx, -cy)
  }

  /** Composition: a translated transform applies `t` to the shifted point. */
  lemma TranslateApply(t: Zoom, dx: real, dy: real, p: Point)
    ensures Apply(Translate(t, dx, dy), p) == Apply(t, Point(p.x + dx, p.y + dy))
  {
    var u := Translate(t, dx, dy);
    var q := Point(p.x + dx, p.y + dy);
    assert Apply(u, p) == Point(p.x * t.k + (t.x + t.k * dx), p.y * t.k + (t.y + t.k * dy));
    assert Apply(t, q) == Point((p.x + dx) * t.k + t.x, (p.y + dy) * t.k + t.y);
    Distribute(p.x, dx, t.k);
    Distribute(p.y, dy, t.k);
  }

  lemma Distribute(u: real, v: real, k: real)
    ensures (u + v) * k == u * k + k * v
  {
  }

  /** Composition: a scaled transform applies `t` to the scaled point. */
  lemma ScaleApply(t: Zoom, s: real, p: Point)
    ensures Apply(Scale(t, s), p) == Apply(t, Point(p.x * s, p.y * s))
  {
    assert p.x * (t.k * s) == (p.x * s) * t.k;
    assert p.y * (t.k * s) == (p.y * s) * t.k;
  }

  /** The initial view is the homothety of ratio 1/2 about the viewport centre. */
  lemma InitialViewHalves(width: real, height: real, p: Point)
    ensures Apply(InitialView(width, height), p) ==
      Point(width / 2.0 + InitialScale * (p.x - width / 2.0), height / 2.0 + InitialScale * (p.y - height / 2.0))
  {
    var cx := width / 2.0;
    var cy := height / 2.0;
    var t1 := Translate(Identity, cx, cy);
    var t2 := Scale(t1, InitialScale);
    TranslateApply(t2, -cx, -cy, p);
    var q := Point(p.x - cx, p.y - cy);
    ScaleApply(t1, InitialScale, q);
    TranslateApply(Identity, cx, cy, Point(q.x * InitialScale, q.y * InitialScale));
  }

  /** The initial view halves every distance. */
  lemma InitialViewDistances(width: real, height: real, p: Point, q: Point)
    ensures Apply(InitialView(width, height), p).x - Apply(InitialView(width, height), q).x
         == InitialScale * (p.x - q.x)
    ensures Apply(InitialView(width, height), p).y - Apply(InitialView(width, height), q).y
         == InitialScale * (p.y - q.y)
  {
    InitialViewHalves(width, height, p);
    InitialViewHalves(width, height, q);
  }
}
